=== FILE: README.md ===
# inceptum IoC container: a Dafny model

This project models the core of inceptum, a TypeScript/JavaScript
inversion-of-control container.

- A **Context** holds named object definitions. It may have a parent context
  that it delegates lookups to. It runs definition inspectors when it starts,
  and it follows a lifecycle: NOT_STARTED, STARTING, STARTED, STOPPING, STOPPED
  and ERROR.
- Definitions are registered only before the context starts. Registration
  refuses duplicates and names that the parent already owns.
- Starting a context starts its parent first. It then rewrites the definitions
  with the inspectors and builds every non-lazy singleton. If building fails,
  the context is stopped and the failure is passed on.
- Objects are looked up by name, by type (the produced class name), or by
  group. Each definition builds one instance, and that instance is cached.
- The **start/stop inspector** copies a class's static `startMethod` and
  `stopMethod` into its singleton definition.
- The **decorators** record autowiring, laziness and start/stop metadata in a
  global per-target store.
- A **BaseApp** is a root context plus an ordered list of plugins. Plugin hooks
  run around the context's start and stop.
- The **MysqlConfigManager** registers one client singleton per key of the
  `mysql` configuration section.

Modules, one per file:

| file | module | models |
|---|---|---|
| lifecycle.dfy | `Lifecycle` | the lifecycle states and the start/stop guards |
| outcomes.dfy | `Outcomes` | `Option`, `Result`, `Outcome`, and one error constructor per distinct exception |
| definitions.dfy | `Definitions` | object definitions as values: the class, the kind, laziness, start/stop methods, constructor args, properties |
| resolution.dfy | `Resolution` | how an instance is produced (pure functions over a registry and an instance store) |
| registry.dfy | `Registrations` | a context's definitions, their registration order and its store as a value; registration, inspection and by-type merging as functions, with their lemmas |
| inspectors.dfy | `Inspectors` | the start/stop inspector and custom inspectors |
| context.dfy | `Containers` | `class Context`: its fields change in place, and each method is proved against the functions of `Registrations` and `Resolution` |
| decorators.dfy | `Decorators` | `class Metadata` (one target's record) and `class MetadataStore` (the global store) |
| app.dfy | `App` | `class BaseApp` and the plugin hook rounds |
| mysqlconfig.dfy | `MysqlConfig` | `MysqlConfigManager.registerSingletons` |

How the source's state maps onto the model:

- The JavaScript `Map` of definitions becomes `definitions: map<string, Def>`
  plus `order: seq<string>`. The order is the Map's insertion order, which
  fixes the iteration order of `forEach`, of `getDefinitionsByType` and of a
  registration run that throws midway.
- `startedObjects` becomes the set `started` of definition names.
- Exceptions and rejected promises become `Fail(e)` / `Err(e)` results.

## Model

| member | source | states |
|---|---|---|
| Containers.Context.constructor | src/ioc/Context.js:17-23 | A new context has the given name and parent, is NOT_STARTED, and has no definitions, instances, started objects, inspectors or groups. |
| Containers.Context.LcStart | src/ioc/Context.js:29-35 | The answer is `StartOutcome`. The parent starts first; if it fails, that failure is the answer and this context's state, definitions, store and started set are untouched. Otherwise STARTED answers Pass, a state other than NOT_STARTED is refused with `WrongState` and kept, and from NOT_STARTED the answer is Pass exactly when `StartPlan` succeeds, else its error. A success from NOT_STARTED leaves the plan's store, and the started set gains exactly the definitions built by the start. On success every context of the chain is STARTED. |
| Containers.Context.StartSelf | src/ioc/Context.js:45-59 | The lifecycle rule doStart runs under. STARTED answers Pass at once. Other non-NOT_STARTED states fail with `WrongState(NotStarted, s)` and are kept. From NOT_STARTED: Pass exactly when `StartPlan` (the inspected table's non-lazy pass) succeeds, and then the store is the plan's store, the started set gains exactly the definitions the start built, and the context is STARTED; otherwise ERROR, with the plan's error unless stopping the parent fails first. |
| Containers.Context.StartFromNotStarted | src/ioc/Context.js:45-59 | From NOT_STARTED, through STARTING: Pass exactly when `StartPlan` succeeds, leaving its store, the started set grown by exactly the definitions built, and STARTED; a failure leaves ERROR and carries the plan's error, or the parent's stop failure. |
| Containers.Context.DoStart | src/ioc/Context.js:45-59 | The definitions become the result of every inspector applied to them. The answer is Ok(true) exactly when `StartPlan` succeeds, and the store is then the plan's store, so only the non-lazy definitions and what they reference are built, and the started set gains exactly those built definitions. On failure the answer is the plan's error, or the stop's own error when stopping fails, and a stoppable context ends STOPPED with nothing started. |
| Containers.Context.NonLazyOrStop | src/ioc/Context.js:47-58 | The non-lazy pass with its failure handler: Ok(true) with the pass's store, the newly built definitions added to the started set, and no state change when `StartFrom` succeeds; otherwise the pass's error, or the stop's own error when stopping fails, with a stoppable context STOPPED. |
| Containers.Context.StartNonLazy | src/ioc/Context.js:47-51 | The non-lazy pass equals `StartEach` over the non-lazy names in registration order and stops at the first failure. Cached instances are kept. The newly built definitions are added to `started`. |
| Containers.Context.StopAfterFailure | src/ioc/Context.js:52-57 | After a failed start the context and its parents are stopped. The result is the stop's own failure if it has one, and the original error otherwise. |
| Containers.Context.LcStop | src/ioc/Context.js:37-43 | A STARTED or STARTING context ends STOPPED with nothing started, and then its parent is stopped. Any other state is refused with `WrongState(Started, s)` and kept. Each ancestor is stopped exactly when the stop reaches it (`StopReaches`), and the others are unchanged. The result is `StopOutcome`. |
| Containers.Context.DoStop | src/ioc/Context.js:61-64 | Every started definition is stopped exactly once (`multiset(stopped) == multiset(old(started))`). Nothing is left started, and the answer is true. |
| Containers.Context.Clone | src/ioc/Context.js:70-75 | Outside NOT_STARTED it fails with `WrongState`. Otherwise it returns a fresh valid context with the new name, the same parent, NOT_STARTED, and the same definitions in the same order, with no instances, inspectors or groups. It fails exactly when re-registering the definitions into an empty table fails. |
| Containers.Context.ImportContext | src/ioc/Context.js:77-81 | If either context has started, the call fails with `WrongState` and nothing changes. Otherwise the other context's definitions are registered in its registration order, with the given `overwrite`, exactly as `RegisterEach` describes. |
| Containers.Context.AddObjectDefinitionInspector | src/ioc/Context.js:87-92 | A non-inspector is refused with `InvalidInspector` and the list is unchanged. An inspector is appended at the end. |
| Containers.Context.RegisterDefinition | src/ioc/Context.js:98-113 | The new table and outcome are those of `Register`. A refusal leaves the definitions, order and store unchanged. |
| Registrations.RegisterOutcome | src/ioc/Context.js:98-112 | Registration succeeds exactly when four conditions hold: the context is NOT_STARTED, the input is a definition, the name is new or `overwrite` is set, and the parent does not own the name. The first failing check names the error. On success the definition is stored under its name and every other entry is kept. A new name is appended to the order. An overwritten name keeps its place and its cached instance is dropped, so the key set and its size are unchanged. |
| Containers.Context.RegisterInputs | src/ioc/Context.js:115-126 | The new table and outcome equal `RegisterEach` over the inputs: each is registered in turn until the first refusal, and earlier registrations stay. |
| Containers.Context.RegisterSingletons | src/ioc/Context.js:115-126 | `RegisterInputs` without overwriting. |
| Containers.RegisterAll | src/ioc/Context.js:115-126 | The loop over the inputs computes `RegisterEach`. |
| Registrations.AsDefinition | src/ioc/Context.js:116-124 | A definition is taken as it is. A class becomes a default singleton named after the class. Anything else is `NotConvertible`. |
| Registrations.RegisterEachStops | src/ioc/Context.js:115-126 | A run that fails stopped at some input k. The inputs before k were all registered, and input k was refused with the run's error. |
| Registrations.RegisterEachPasses | src/ioc/Context.js:115-126 | A run that passes had only convertible inputs. Its definitions map is the old one overlaid with the inputs' definitions, later ones winning. |
| Registrations.RegisterEachAppends | src/ioc/Context.js:115-126 | Without overwriting, a run that passes appends the inputs' definitions in input order after the existing entries and builds nothing. |
| Registrations.RegisterEachStores | src/ioc/Context.js:115-126 | Without overwriting, a run that passes keeps every existing definition and stores each input definition under its own name. |
| Registrations.CopyAll | src/ioc/Context.js:73 | Re-registering a table's definitions into an empty table, when it passes, reproduces the same entries in the same order. |
| Containers.Context.Owner | src/ioc/Context.js:207-214 | The context found is in the chain and owns the name. |
| Containers.Context.OwnerNearest | src/ioc/Context.js:207-214 | `Owner` is null exactly when no context of the chain owns the name. Otherwise no context below the owner owns it. |
| Containers.Context.GetDefinitionByName | src/ioc/Context.js:207-214 | The result is the nearest owner's definition, or `NoSuchName` when no context of the chain has one. |
| Containers.Context.TypeViewProduces | src/ioc/Context.js:225-240 | Every entry of the by-type view is stored under its own name, is an autowire candidate, and produces the class. |
| Containers.Context.GetDefinitionsByType | src/ioc/Context.js:225-240 | The result has distinct names, and as a map it is the parent's matches overlaid with the local ones. It fails (`NoSuchType`) exactly when `failOnMissing` is set and nothing matches. The parent's matches keep their positions, and the parent call never fails. |
| Registrations.OverlaySpec | src/ioc/Context.js:226-235 | Setting each definition into a list with distinct names keeps the names distinct. The map view is overlaid, and earlier entries keep their places. |
| Registrations.UpsertSpec | src/ioc/Context.js:229-233 | `Map.set` on a list with distinct names keeps them distinct and updates the map view at that name only. |
| Containers.Context.GetDefinitionByType | src/ioc/Context.js:216-223 | The call succeeds exactly when the chain's by-type view (one entry per name, a nearer definition hiding an ancestor's of the same name) has one entry, and returns it. Otherwise it fails with `NoSuchType` when the view is empty, or `AmbiguousType` when it has several entries. |
| Containers.Context.ApplyObjectDefinitionModifiers | src/ioc/Context.js:242-252 | The new table is `ApplyAll`: every inspector in the order added, over every definition in registration order. |
| Containers.Context.ApplyOneInPlace | src/ioc/Context.js:245-250 | One inspector over every definition gives `ApplyOne`. |
| Containers.InspectEach | src/ioc/Context.js:245-250 | The loop over the registration order computes `ApplyOne`. A returned definition replaces the entry under the same key, and otherwise the in-place change stays. |
| Registrations.ApplyAllPerKey | src/ioc/Context.js:242-252 | Inspection keeps the keys and the order. It only drops cached instances. Each key ends with its definition passed through every inspector in turn. |
| Containers.Context.LocalInstance | src/ioc/Context.js:188-191 | The owner's answer is `GetInstance` on its registry. On success the new store is kept, cached instances stay, and the newly built names become started. On failure nothing changes. |
| Containers.Context.GetObjectByName | src/ioc/Context.js:188-191 | No owner means `NoSuchName`. Otherwise the owner serves the request, and no other context of the chain changes. The returned instance is the one the owner caches. |
| Containers.Context.InstanceOf | src/ioc/Context.js:195 | The nearest context holding the definition builds its instance, and no other context changes. |
| Containers.Context.GetObjectByType | src/ioc/Context.js:193-196 | A by-type lookup failure is returned and nothing changes. Otherwise the unique definition's holder serves the request. |
| Containers.Context.GetObjectsByType | src/ioc/Context.js:198-201 | A failed lookup is passed on. On success there is one instance per definition, in `getDefinitionsByType` order, each cached by that definition's holder. |
| Containers.BuildEach | src/ioc/Context.js:47-58 | The loop of the non-lazy pass computes `StartEach`, answering true when it completes. |
| Registrations.NonLazyOf | src/ioc/Context.js:48 | The non-lazy names are exactly the registered definitions that are not lazy. |
| Registrations.StartEach | src/ioc/Context.js:48-51 | On success every name has a cached instance and earlier instances are kept. |
| Registrations.AllLazyStartsNothing | test/ioc/Context.ts:99-108 | When every inspected definition is lazy, starting builds nothing: `StartPlan` succeeds with the inspected store unchanged. |
| Containers.Context.AddObjectNameToGroup | test/ioc/Context.ts:307-340 | The name is appended to the group. Every other group is unchanged. |
| Containers.Context.GetDefinitionsByGroup | test/ioc/Context.ts:307-320 | The group's definitions in the order added. It fails exactly when some member has no local definition. |
| Resolution.GetInstance | test/ioc/Context.ts:186-199 | A cached instance is returned unchanged. An unknown name gives `NoSuchName`. On success the instance is cached under the name, earlier instances are kept, and the wiring queue is empty. |
| Resolution.GetInstanceBuilds | test/ioc/Context.ts:201-238 | Every instance a successful request newly builds has its definition's class, one argument per constructor wiring, each holding that wiring's resolved value (`Resolved`), and every property field holding its wiring's resolved value. |
| Resolution.ReadyBuilds | test/ioc/Context.ts:201-238 | A definition whose class does not throw and whose constructor arguments and properties are all literals, references to cached names, or types whose one producer is cached, is built: the request succeeds, caches only this definition's new instance, and that instance is built and wired. |
| Resolution.DiamondShared | test/ioc/Context.ts:433-454 | Two instances built by one request whose properties both reference `b` hold the same instance: the one cached for `b`. |
| Resolution.TypeWiredInstance | test/ioc/Context.ts:369-382 | A property wired by type holds the instance of the one definition that produces the class. |
| Resolution.WirePropsSets | test/ioc/Context.ts:343-368 | Wiring one instance's properties sets, for each key, the resolved value of the last property with that key, keeps the fields no property names, and changes no other instance. |
| Resolution.WireAllWires | test/ioc/Context.ts:414-454 | After property wiring, every newly built instance is built and wired: constructor arguments and fields hold their resolved values. |
| Resolution.SingletonInstance | test/ioc/Context.ts:186-199 | Asking again for an instance just obtained returns the same instance and changes nothing. |
| Resolution.Instantiate | test/ioc/Context.ts:455-469 | A cached name is returned at once. An uncached name already on the constructor path fails with `CircularDependency(path + [n])`. A success caches the new instance under the name, with its definition's class and resolved constructor arguments, and earlier instances keep their class and arguments. |
| Resolution.ResolveArgs | test/ioc/Context.ts:201-238 | One value per constructor wiring, each the wiring's resolved value in the final store. |
| Resolution.ConstructorCycleFails | test/ioc/Context.ts:455-469 | Two definitions whose constructors reference each other fail with `CircularDependency([a, b, a])`. |
| Resolution.PropertyCycleResolves | test/ioc/Context.ts:414-432 | A constructor reference closed by a property reference resolves. `a` is built with `b`'s instance, and `b`'s property holds `a`'s instance. |
| Resolution.ResolveArg | test/ioc/Context.ts:201-238 | The result is the wiring's resolved value: a literal for a value (building nothing), the target's cached instance for a reference, the unique producer's instance for a type (and its lookup error otherwise), one instance per member for a group, and the members' definitions for a definition group, failing exactly when one is missing and building nothing. |
| Resolution.UniqueByType | test/ioc/Context.ts:226-240 | A type wiring resolves only to a local definition that produces the class, and otherwise fails with `NoSuchType` or `AmbiguousType`. |
| Resolution.UniqueByTypeIff | test/ioc/Context.ts:226-240 | Lookup by type succeeds exactly when one definition produces the class, and names it; it fails with `NoSuchType` exactly when none does and with `AmbiguousType` exactly when several do. |
| Resolution.TypeMatches | test/ioc/Context.ts:226-240 | The local definitions producing a class are exactly the ones listed. |
| Resolution.TypeMatchesInOrder | test/ioc/Context.ts:226-240 | The matches have distinct names and appear in registration order. |
| Resolution.GroupDefinitions | test/ioc/Context.ts:323-340 | The group's definitions in order. It fails exactly when a member has no definition. |
| Resolution.WireAll | test/ioc/Context.ts:414-453 | Property wiring empties the queue and keeps cached instances. With nothing queued, nothing changes. |
| Inspectors.StartStopDoInspect | src/ioc/autoconfig/ObjectDefinitionStartStopMethodsInspector.ts:14-23 | A truthy class `startMethod` / `stopMethod` is copied into the definition. A falsy one leaves that field as it was, and no other field changes. |
| Inspectors.StartStopChangesInPlace | src/ioc/autoconfig/ObjectDefinitionStartStopMethodsInspector.ts:5-23 | The inspector returns nothing, so its effect is the in-place change. It applies only when interested: a singleton whose class declares either member, even as null. The name is kept. |
| Inspectors.StartStopFalsyIsNoOp | src/ioc/autoconfig/ObjectDefinitionStartStopMethodsInspector.ts:15-22 | When both class members are falsy the definition is unchanged. |
| Inspectors.StartStopIdempotent | src/ioc/autoconfig/ObjectDefinitionStartStopMethodsInspector.ts:14-23 | Inspecting twice gives what inspecting once gives. |
| Decorators.Metadata.constructor | src/ioc/Decorators.ts:5-10 | A fresh record has no autowiring, is lazy, and has no start or stop method. |
| Decorators.MetadataStore.GetOrCreate | src/ioc/Decorators.ts:12-27 | An existing record is returned and the store is unchanged. Otherwise a fresh default record is stored for the target, so asking again returns that same record. Records are never shared between targets. |
| Decorators.MetadataStore.Autowire | src/ioc/Decorators.ts:29-35 | The target's record maps the member to `what`. Its other keys and fields are kept, and every other target is unchanged. |
| Decorators.MetadataStore.AutowireConfig | src/ioc/Decorators.ts:37-43 | The same as Autowire, with the value `ConfigRef(configKey)`. |
| Decorators.ConfigRef | src/ioc/Decorators.ts:41 | `#` followed by the key. |
| Decorators.ConfigRefInjective | src/ioc/Decorators.ts:41 | Different keys give different references. |
| Decorators.MetadataStore.Lazy | src/ioc/Decorators.ts:45-50 | Only the `lazy` field of the record on the class's prototype changes. |
| Decorators.MetadataStore.StartMethod | src/ioc/Decorators.ts:52-55 | Only `startMethod` changes, to the member's name. |
| Decorators.MetadataStore.StopMethod | src/ioc/Decorators.ts:57-60 | Only `stopMethod` changes, to the member's name. |
| App.BaseApp.constructor | src/app/BaseApp.ts:63-72 | A new app has a fresh root context with the given name, NOT_STARTED, and no plugins. |
| App.BaseApp.Register | src/app/BaseApp.ts:103-113 | While the context is NOT_STARTED, the plugins are appended in argument order. Otherwise the call fails with `PluginsAfterStart(names)` and the list is unchanged. |
| App.BaseApp.Use | src/app/BaseApp.ts:74-76 | The same contract as Register. |
| App.BaseApp.RegisteredPluginNames | src/app/BaseApp.ts:115-117 | One name per plugin, in registration order. |
| App.NamesOf | src/app/BaseApp.ts:107-108 | The names of the plugins, index by index. |
| App.Find | src/app/BaseApp.ts:119-121 | A found plugin is registered and has the name. Nothing is found exactly when no plugin has the name. |
| App.BaseApp.HasRegisteredPluginIff | src/app/BaseApp.ts:119-121 | A name is registered exactly when it is among the registered names, and exactly when some plugin has it. |
| App.BaseApp.RunLifecycleMethodOnPlugins | src/app/BaseApp.ts:123-132 | The outcome and the hooks run are those of `RunHooks`, and the hooks run are appended to the trace in order. |
| App.RunRound | src/app/BaseApp.ts:124-131 | The sequential loop computes `RunHooks`. |
| App.RunHooksPass | src/app/BaseApp.ts:123-132 | A round passes exactly when no plugin's hook rejects. It then runs every plugin that has the hook, in registration order, and skips the others. |
| App.RunHooksFail | src/app/BaseApp.ts:123-132 | A failed round stops at the first plugin k whose hook rejects. The hooks before k ran, then k's own, and nothing after. The failure names plugin k. |
| App.BaseApp.Start | src/app/BaseApp.ts:134-144 | A willStart failure ends the start with the context untouched. When willStart passes and the context's start fails, that failure is the answer and only the willStart hooks are in the trace. When both pass, the answer is the didStart round's, the context is STARTED, and the trace is the willStart hooks, the context start, then the didStart hooks. |
| App.BaseApp.Stop | src/app/BaseApp.ts:145-152 | A willStop failure ends the stop with the context untouched. A context that cannot stop is refused. When willStop passes and the context's stop fails, that failure is the answer and only the willStop hooks are in the trace. When both pass, the answer is the didStop round's, the context is STOPPED with nothing started, and the trace is the willStop hooks, the context stop, then the didStop hooks. |
| MysqlConfig.ClientDefinition | src/mysql/MysqlConfigManager.ts:13-15 | A lazy singleton of the client class named after the key, with properties `name` = key and `configuration` = the entry's configuration, both by value. |
| MysqlConfig.ClientDefinitions | src/mysql/MysqlConfigManager.ts:7-17 | No section gives no definitions. Otherwise there is exactly one per key, in key order. |
| MysqlConfig.RegisterSingletons | src/mysql/MysqlConfigManager.ts:6-18 | Without a section the outcome is Pass and the context is unchanged. Otherwise the context equals `RegisterEach` over the client definitions in key order, so the context's state and duplicate rules apply. |
| MysqlConfig.ClientsAppended | src/mysql/MysqlConfigManager.ts:12-17 | A run that passes appends exactly the client definitions after the existing ones and builds nothing. |
| MysqlConfig.EveryKeyRegistered | src/mysql/MysqlConfigManager.ts:12-17 | A run that passes stores each key's client definition under the key. |
| MysqlConfig.ClientInspected | src/db/DBClient.ts:22-23 | The start/stop inspector gives a client definition `initialise` as its start function and `stop` as its stop function, and changes nothing else. |
| Definitions.SingletonOf | src/ioc/Context.js:120 | A default singleton is named after its class unless a name is given. It is lazy, an autowire candidate, has no start/stop method and has no arguments or properties. |

## Left out

- Definition classes: the source of the definition classes (`ObjectDefinition`, `BaseSingletonDefinition`, `PreinstantiatedSingletonDefinition`) and of `Lifecycle` is not part of this model. How an instance is produced is modelled abstractly in `Resolution`, after the behaviour the tests in test/ioc/Context.ts describe.
- Lifecycle rules: starting is allowed only from NOT_STARTED (STARTED answers at once), and stopping only from STARTED or STARTING. A refused stop reports `WrongState(Started, s)`.
- Resolution scope: resolution is local to the context that owns the definition. References, types and groups are resolved against that context's own definitions, not its parents'.
- Failed builds: a build that fails is all-or-nothing. Instances created during a failed `getInstance` are discarded rather than left half-built.
- Concurrency: `PromiseUtil.map` in `doStart`, `doStop` and `getObjectsByType` is modelled as a sequential pass in list order, with no interleavings. For `doStop` the order is left open.
- Definition lifecycles: `started` is the set of started definition names. Definition-level start and stop hooks (`startFunction`/`stopFunction`) are recorded on the definition, but running them is not modelled.
- Containers.Context.RegisterDefinition: the parent check looks only at the immediate parent, as the code does (`this.parentContext.objectDefinitions.has`). A name owned by a more distant ancestor is accepted.
- Containers.Context.Clone: definitions are shared as values, so `objectDefinition.copy()` is the identity. Inspectors and groups are not copied, as in the code.
- Groups: `addObjectNameToGroup` and `getDefinitionsByGroup` are not in Context.js. They are modelled from their uses in test/ioc/Context.ts.
- Containers.Context.GetObjectByName: its instance contract is stated for the owning context only. An instance that refers into the parent chain is not modelled (see Resolution scope above).
- Containers.Context.DoStart: the `nonLazyObjectsPending` set is not modelled. Each non-lazy definition leaves it once its instance exists, so a completed pass answers true.
- Containers.Context.DoStart: that a lazy definition stays unbuilt is stated through the store equalling `StartPlan`'s, and proved outright (`AllLazyStartsNothing`) only for a table whose definitions are all lazy. There is no general reachability lemma.
- Containers.Context.ImportContext: Context.js:80 registers the other context's definition objects themselves, and :110 rebinds each to the importing context with `setContext`. The model copies definitions as values, and each context keeps its own instance cache, so the sharing of one definition and its instance between both contexts is not modelled.
- Directory loading: `registerSingletonsInDir`, `walkDirSync` and `BaseApp.addDirectory` are filesystem and module loading.
- Configuration: `getConfig`, `hasConfig` and `getConfigSources` wrap an external package. The `mysql` section is a parameter (`Option<seq<Entry>>`), and entry order stands for `Object.keys` order.
- MysqlConfig.ClientDefinition: each configuration value is an opaque string. The `MysqlClient` class is not part of this model. Its static `startMethod` and `stopMethod` are taken to be the ones it inherits from the database client base class, `initialise` and `stop` (src/db/DBClient.ts:22-23), on the assumption that it extends that class.
- Logging: all logging is left out, including the `LogManager` and `logger` definitions the BaseApp constructor registers, `LogManager.scheduleShutdown` on STOPPED, and `delete this.logger`.
- Process handling: the SIGINT/SIGTERM handlers in `BaseApp.start` are not modelled.
- App.BaseApp.RunLifecycleMethodOnPlugins: a hook's effect on the app and on `pluginContext` is not modelled. How each hook settles is data on the plugin, and the hooks run are recorded in a ghost trace.
- Containers.Context.ApplyObjectDefinitionModifiers: a replacement an inspector returns is stored with a bare `Map.set` (src/ioc/Context.js:248). Unlike `registerDefinition` (src/ioc/Context.js:110-112), this does not call `setContext` and attaches no STARTED/STOPPED listeners, so in the source a replacement that is a new object never enters `startedObjects` and `doStop` never stops it. The model treats a replacement like a registered definition: its instance, once built by `DoStart`, `StartFromNotStarted`, `StartSelf`, `LcStart` or `LocalInstance`, is recorded in `started`.
- Inspectors.Inspect: a custom inspector's in-place changes to the definition it is handed are not modelled; only a returned replacement is. A replacement drops the definition's cached instance, where an in-place change would keep it.
- Containers.Context.GetDefinitionsByType: the order of the entries after the parent's is not stated. The contract gives the map view, distinct names and the parent's entries in their places; that the local-only producers follow in registration order is not proved.
- Decorators: Reflect metadata lookup through the prototype chain is not modelled. Each target has its own record.
- Other files: DBClient, RabbitmqProducer, ContentNegotiationMiddleware and index.ts are outside the container core.

=== FILE: app.dfy ===
/**
 * The application shell: a root context plus an ordered list of plugins whose
 * lifecycle hooks run around the context's own start and stop. Plugins are
 * registered only while the context has not started; each hook round runs the
 * plugins one after another in registration order and stops at the first hook
 * that fails.
 */
module App {
  import opened Lifecycle
  import opened Outcomes
  import opened Containers

  /** The four plugin hooks. */
  datatype Hook = WillStart | DidStart | WillStop | DidStop

  /** How a hook the plugin defines settles: it completes, or it throws / rejects. */
  datatype Settles = Resolves | Rejects

  /** A plugin: its name and the hooks it defines, each with how it settles. */
  datatype Plugin = Plugin(name: string, hooks: map<Hook, Settles>)

  /** What the application observably did, in order. */
  datatype Event = HookRan(plugin: string, hook: Hook) | ContextStart | ContextStop

  function HookOf(p: Plugin, hook: Hook): Option<Settles>
  {
    if hook in p.hooks then Some(p.hooks[hook]) else None
  }

  /** The names of the plugins in `ps`, in order. */
  function NamesOf(ps: seq<Plugin>): (names: seq<string>)
    ensures |names| == |ps|
    ensures forall i :: 0 <= i < |ps| ==> names[i] == ps[i].name
  {
    if ps == [] then [] else [ps[0].name] + NamesOf(ps[1..])
  }

  /** The first plugin called `name`, if any (`Array.prototype.find`). */
  function Find(ps: seq<Plugin>, name: string): (r: Option<Plugin>)
    ensures r.Some? ==> r.value in ps && r.value.name == name
    ensures r.None? <==> forall i :: 0 <= i < |ps| ==> ps[i].name != name
  {
    if ps == [] then None
    else if ps[0].name == name then Some(ps[0])
    else Find(ps[1..], name)
  }

  /** The names of the plugins in `ps` that define `hook`, in order. */
  function HookNames(ps: seq<Plugin>, hook: Hook): seq<string>
  {
    if ps == [] then []
    else
      var last := ps[|ps| - 1];
      HookNames(ps[..|ps| - 1], hook) + (if HookOf(last, hook).Some? then [last.name] else [])
  }

  /** One `HookRan` event per name, in order. */
  function HookEvents(names: seq<string>, hook: Hook): (es: seq<Event>)
    ensures |es| == |names|
  {
    if names == [] then [] else HookEvents(names[..|names| - 1], hook) + [HookRan(names[|names| - 1], hook)]
  }

  /**
   * One hook round over `ps` as a value: the plugins whose hook ran, in order,
   * and how the round ended. Plugins without the hook are skipped; the first
   * hook that rejects ends the round with that plugin's failure and no later
   * hook runs.
   */
  function RunHooks(ps: seq<Plugin>, hook: Hook): (seq<string>, Outcome)
  {
    if ps == [] then ([], Pass)
    else
      match HookOf(ps[0], hook)
      case None => RunHooks(ps[1..], hook)
      case Some(Rejects) => ([ps[0].name], Fail(HookFailed(ps[0].name)))
      case Some(Resolves) =>
        var rest := RunHooks(ps[1..], hook);
        ([ps[0].name] + rest.0, rest.1)
  }

  predicate NoneRejects(ps: seq<Plugin>, hook: Hook)
  {
    forall i :: 0 <= i < |ps| ==> HookOf(ps[i], hook) != Some(Rejects)
  }

  lemma NoneRejectsCons(p: Plugin, ps: seq<Plugin>, hook: Hook)
    ensures NoneRejects([p] + ps, hook) <==> HookOf(p, hook) != Some(Rejects) && NoneRejects(ps, hook)
  {
    var qs := [p] + ps;
    assert qs[0] == p;
    if NoneRejects(qs, hook) {
      forall i | 0 <= i < |ps|
        ensures HookOf(ps[i], hook) != Some(Rejects)
      {
        assert ps[i] == qs[i + 1];
      }
    }
  }

  lemma {:induction false} HookNamesCons(p: Plugin, ps: seq<Plugin>, hook: Hook)
    ensures HookNames([p] + ps, hook) == (if HookOf(p, hook).Some? then [p.name] else []) + HookNames(ps, hook)
    decreases |ps|
  {
    if ps != [] {
      var init := ps[..|ps| - 1];
      assert ([p] + ps)[..|ps|] == [p] + init;
      HookNamesCons(p, init, hook);
    } else {
      assert ([p] + ps)[..0] == [];
    }
  }

  /**
   * A round ends well exactly when no plugin's hook rejects, and then every
   * plugin that defines the hook ran, in registration order.
   */
  lemma {:induction false} RunHooksPass(ps: seq<Plugin>, hook: Hook)
    ensures RunHooks(ps, hook).1 == Pass <==> NoneRejects(ps, hook)
    ensures NoneRejects(ps, hook) ==> RunHooks(ps, hook).0 == HookNames(ps, hook)
    decreases |ps|
  {
    if ps != [] {
      assert [ps[0]] + ps[1..] == ps;
      RunHooksPass(ps[1..], hook);
      HookNamesCons(ps[0], ps[1..], hook);
      NoneRejectsCons(ps[0], ps[1..], hook);
    }
  }

  /**
   * A round that fails stops at the first plugin whose hook rejects: the hooks
   * before it that exist ran, then its own, and the failure names it.
   */
  lemma {:induction false} RunHooksFail(ps: seq<Plugin>, hook: Hook) returns (k: nat)
    requires RunHooks(ps, hook).1.Fail?
    ensures k < |ps| && HookOf(ps[k], hook) == Some(Rejects) && NoneRejects(ps[..k], hook)
    ensures RunHooks(ps, hook) == (HookNames(ps[..k], hook) + [ps[k].name], Fail(HookFailed(ps[k].name)))
    decreases |ps|
  {
    assert ps != [];
    var rest := ps[1..];
    assert [ps[0]] + rest == ps;
    if HookOf(ps[0], hook) == Some(Rejects) {
      k := 0;
      assert ps[..0] == [];
      assert HookNames(ps[..0], hook) == [];
      assert RunHooks(ps, hook) == ([ps[0].name], Fail(HookFailed(ps[0].name)));
      assert HookNames(ps[..k], hook) + [ps[k].name] == [ps[0].name];
    } else {
      var j := RunHooksFail(rest, hook);
      k := j + 1;
      assert ps[..k] == [ps[0]] + rest[..j];
      HookNamesCons(ps[0], rest[..j], hook);
      NoneRejectsCons(ps[0], rest[..j], hook);
      assert ps[k] == rest[j];
      if HookOf(ps[0], hook).None? {
        assert RunHooks(ps, hook) == RunHooks(rest, hook);
        assert HookNames(ps[..k], hook) == HookNames(rest[..j], hook);
      } else {
        assert RunHooks(ps, hook) == ([ps[0].name] + RunHooks(rest, hook).0, RunHooks(rest, hook).1);
        assert [ps[0].name] + (HookNames(rest[..j], hook) + [rest[j].name]) == ([ps[0].name] + HookNames(rest[..j], hook)) + [rest[j].name];
      }
    }
  }

  /** The round from plugin `i` on, one plugin further. */
  lemma RunHooksAt(ps: seq<Plugin>, i: nat, hook: Hook)
    requires i < |ps|
    ensures var rest := RunHooks(ps[i + 1..], hook);
      RunHooks(ps[i..], hook) ==
        match HookOf(ps[i], hook)
        case None => rest
        case Some(Rejects) => ([ps[i].name], Fail(HookFailed(ps[i].name)))
        case Some(Resolves) => ([ps[i].name] + rest.0, rest.1)
  {
    assert ps[i..][0] == ps[i] && ps[i..][1..] == ps[i + 1..];
  }

  /**
   * The sequential loop of a hook round: each plugin in turn, waiting for its
   * hook before the next, skipping plugins without the hook and giving up at the
   * first rejection. `ran` lists the plugins whose hook was called.
   */
  method RunRound(ps: seq<Plugin>, hook: Hook) returns (ran: seq<string>, r: Outcome)
    ensures (ran, r) == RunHooks(ps, hook)
  {
    ran := [];
    assert ps[0..] == ps && ran + RunHooks(ps, hook).0 == RunHooks(ps, hook).0;
    var i := 0;
    while i < |ps|
      invariant 0 <= i <= |ps|
      invariant RunHooks(ps, hook) == (ran + RunHooks(ps[i..], hook).0, RunHooks(ps[i..], hook).1)
    {
      var p := ps[i];
      RunHooksAt(ps, i, hook);
      var settles := HookOf(p, hook);
      if settles.Some? {
        if settles.value == Rejects {
          return ran + [p.name], Fail(HookFailed(p.name));
        }
        assert ran + ([p.name] + RunHooks(ps[i + 1..], hook).0) == (ran + [p.name]) + RunHooks(ps[i + 1..], hook).0;
        ran := ran + [p.name];
      }
      i := i + 1;
    }
    assert ps[i..] == [] && ran + [] == ran;
    r := Pass;
  }

  /** `BaseApp`: the application's root context and its plugins. */
  class BaseApp {
    const context: Context
    var plugins: seq<Plugin>
    /** What the application has done so far: hooks run and context starts and stops. */
    ghost var trace: seq<Event>

    ghost predicate Valid()
      reads this, context, context.Ancestors
    {
      context.Valid() && context.parent == null
    }

    /** A new application around a fresh root context, with no plugins. */
    constructor (name: string)
      ensures Valid() && fresh(context)
      ensures context.name == name && context.state == NotStarted
      ensures plugins == [] && trace == []
    {
      context := new Context(name, null);
      plugins := [];
      trace := [];
    }

    /**
     * `register`: while the context has not started, the plugins are appended in
     * the order given; afterwards the call is refused and nothing changes.
     */
    method Register(ps: seq<Plugin>) returns (r: Outcome)
      modifies this`plugins
      ensures context.state == NotStarted ==> r == Pass && plugins == old(plugins) + ps
      ensures context.state != NotStarted ==> r == Fail(PluginsAfterStart(NamesOf(ps))) && plugins == old(plugins)
    {
      if context.state != NotStarted {
        return Fail(PluginsAfterStart(NamesOf(ps)));
      }
      plugins := plugins + ps;
      r := Pass;
    }

    /** `use`: another name for `register`, with the same effect. */
    method Use(ps: seq<Plugin>) returns (r: Outcome)
      modifies this`plugins
      ensures context.state == NotStarted ==> r == Pass && plugins == old(plugins) + ps
      ensures context.state != NotStarted ==> r == Fail(PluginsAfterStart(NamesOf(ps))) && plugins == old(plugins)
    {
      r := Register(ps);
    }

    /** `getRegisteredPluginNames`: one name per registered plugin, in registration order. */
    function RegisteredPluginNames(): (names: seq<string>)
      reads this
      ensures |names| == |plugins|
      ensures forall i :: 0 <= i < |plugins| ==> names[i] == plugins[i].name
    {
      NamesOf(plugins)
    }

    /** `hasRegisteredPlugin`: whether some registered plugin has that name. */
    predicate HasRegisteredPlugin(name: string)
      reads this
    {
      Find(plugins, name).Some?
    }

    /** A plugin is registered under a name exactly when the name is among the registered names. */
    lemma HasRegisteredPluginIff(name: string)
      ensures HasRegisteredPlugin(name) <==> name in RegisteredPluginNames()
      ensures HasRegisteredPlugin(name) <==> exists i :: 0 <= i < |plugins| && plugins[i].name == name
    {
      var names := RegisteredPluginNames();
      if name in names {
        var i :| 0 <= i < |names| && names[i] == name;
        assert plugins[i].name == name;
      }
    }

    /**
     * `runLifecycleMethodOnPlugins`: the plugins' `hook`, one at a time in
     * registration order, skipping plugins without it and stopping at the
     * first that fails; the hooks that ran are appended to the trace.
     */
    method RunLifecycleMethodOnPlugins(hook: Hook) returns (r: Outcome)
      modifies this`trace
      ensures r == RunHooks(plugins, hook).1
      ensures trace == old(trace) + HookEvents(RunHooks(plugins, hook).0, hook)
    {
      var ran;
      ran, r := RunRound(plugins, hook);
      trace := trace + HookEvents(ran, hook);
    }

    /**
     * `start`: the plugins' `willStart` hooks, then the context's own start,
     * then the plugins' `didStart` hooks; the first failure ends the start and
     * is its outcome.
     */
    method Start() returns (r: Outcome)
      requires Valid()
      modifies this`trace, context
      ensures Valid()
      ensures var (before, r1) := RunHooks(plugins, WillStart);
        r1.Fail? ==> r == r1 && trace == old(trace) + HookEvents(before, WillStart) && unchanged(context)
      ensures var (before, r1) := RunHooks(plugins, WillStart);
        r1.Pass? && old(context.StartOutcome()).Fail? ==>
          r == old(context.StartOutcome()) && trace == old(trace) + HookEvents(before, WillStart)
      ensures var (before, r1) := RunHooks(plugins, WillStart);
        r1.Pass? && old(context.StartOutcome()).Pass? ==>
          && r == RunHooks(plugins, DidStart).1
          && context.state == Started
          && trace == old(trace) + HookEvents(before, WillStart) + [ContextStart]
                      + HookEvents(RunHooks(plugins, DidStart).0, DidStart)
    {
      r := RunLifecycleMethodOnPlugins(WillStart);
      if r.Fail? {
        return;
      }
      r := context.LcStart();
      if r.Fail? {
        return;
      }
      trace := trace + [ContextStart];
      assert context in context.Lineage();
      r := RunLifecycleMethodOnPlugins(DidStart);
    }

    /**
     * `stop`: the plugins' `willStop` hooks, then the context's own stop, then
     * the plugins' `didStop` hooks; the first failure ends the stop and is its
     * outcome.
     */
    method Stop() returns (r: Outcome)
      requires Valid()
      modifies this`trace, context
      ensures Valid()
      ensures var (before, r1) := RunHooks(plugins, WillStop);
        r1.Fail? ==> r == r1 && trace == old(trace) + HookEvents(before, WillStop) && unchanged(context)
      ensures RunHooks(plugins, WillStop).1.Pass? && !MayStop(old(context.state)) ==>
        r == Fail(WrongState(Started, old(context.state))) && context.state == old(context.state)
      ensures var (before, r1) := RunHooks(plugins, WillStop);
        r1.Pass? && old(context.StopOutcome()).Fail? ==>
          r == old(context.StopOutcome()) && trace == old(trace) + HookEvents(before, WillStop)
      ensures var (before, r1) := RunHooks(plugins, WillStop);
        r1.Pass? && old(context.StopOutcome()).Pass? ==>
          && r == RunHooks(plugins, DidStop).1
          && context.state == Stopped && context.started == {}
          && trace == old(trace) + HookEvents(before, WillStop) + [ContextStop]
                      + HookEvents(RunHooks(plugins, DidStop).0, DidStop)
    {
      r := RunLifecycleMethodOnPlugins(WillStop);
      if r.Fail? {
        return;
      }
      r := context.LcStop();
      if r.Fail? {
        return;
      }
      trace := trace + [ContextStop];
      r := RunLifecycleMethodOnPlugins(DidStop);
    }
  }
}

=== FILE: context.dfy ===
/**
 * The container. A Context owns named definitions, may have a parent it delegates
 * lookups to, runs definition inspectors when it starts, and has a lifecycle:
 * registration, cloning and importing are only allowed before it starts; starting
 * starts the parent first and instantiates every non-lazy definition; stopping
 * stops what it started, then the parent.
 */
module Containers {
  import opened Lifecycle
  import opened Outcomes
  import opened Definitions
  import opened Resolution
  import opened Inspectors
  import opened Registrations

  /** Everything a context may change, for stating what an operation leaves alone. */
  datatype Fields = Fields(
    state: LifecycleState,
    definitions: map<string, Def>,
    order: seq<string>,
    store: Store,
    started: set<string>,
    inspectors: seq<Inspector>,
    groups: map<string, seq<string>>)

  class Context {
    const name: string
    const parent: Context?
    /** The length of the parent chain and its members. */
    ghost const depth: nat
    ghost const Ancestors: set<Context>

    var state: LifecycleState
    /** The definitions by name, and the order in which the names were registered. */
    var definitions: map<string, Def>
    var order: seq<string>
    /** The instances built from this context's definitions. */
    var store: Store
    /** The names of the definitions that have started and not stopped. */
    var started: set<string>
    var inspectors: seq<Inspector>
    /** Named groups of definition names, in the order they were added. */
    var groups: map<string, seq<string>>

    ghost predicate Linked()
      decreases depth
    {
      if parent == null then Ancestors == {}
      else parent.depth < depth && Ancestors == {parent} + parent.Ancestors && parent.Linked()
    }

    ghost function Lineage(): set<Context>
    {
      {this} + Ancestors
    }

    function Snapshot(): Table
      reads this
    {
      Table(definitions, order, store)
    }

    function Reg(): Registry
      reads this
    {
      Registry(definitions, order, groups)
    }

    ghost function Everything(): Fields
      reads this
    {
      Fields(state, definitions, order, store, started, inspectors, groups)
    }

    ghost predicate LocalValid()
      reads this
    {
      && Sound(Snapshot())
      && WellFormed(Reg(), store) && store.unwired == []
      && started <= definitions.Keys
    }

    ghost predicate Valid()
      reads this, Ancestors
      decreases depth
    {
      && Linked()
      && LocalValid()
      && (parent != null ==> parent.Valid())
    }

    /** Every ancestor sits strictly higher in the chain, so a context is never its own ancestor. */
    lemma {:induction false} AncestorsBelow()
      requires Linked()
      ensures forall c :: c in Ancestors ==> c.depth < depth
      ensures this !in Ancestors
      decreases depth
    {
      if parent != null {
        parent.AncestorsBelow();
      }
    }

    /** Changing only this context keeps its ancestors valid. */
    twostate lemma AncestorsKept()
      requires old(Valid()) && unchanged(Ancestors)
      ensures parent != null ==> parent.Valid()
    {
    }

    /** The names the immediate parent owns; registration refuses them. */
    function ParentNames(): set<string>
      reads parent
    {
      if parent == null then {} else parent.definitions.Keys
    }

    constructor (name: string, parent: Context?)
      requires parent != null ==> parent.Valid()
      ensures Valid()
      ensures this.name == name && this.parent == parent
      ensures state == NotStarted && Snapshot() == EmptyTable
      ensures started == {} && inspectors == [] && groups == map[]
    {
      this.name := name;
      this.parent := parent;
      depth := if parent == null then 0 else parent.depth + 1;
      Ancestors := if parent == null then {} else {parent} + parent.Ancestors;
      state := NotStarted;
      definitions := map[];
      order := [];
      store := EmptyStore;
      started := {};
      inspectors := [];
      groups := map[];
    }

    // -------------------------------------------------------------------------
    // Lifecycle
    // -------------------------------------------------------------------------

    /** Whether a stop issued here reaches `c`: each context stops in turn, going up, until one cannot. */
    ghost predicate StopReaches(c: Context)
      requires Linked()
      reads this`state, Ancestors`state
      decreases depth
    {
      MayStop(state) && (c == this || (parent != null && parent.StopReaches(c)))
    }

    /** What `lcStop` answers: the refusal of the first context that cannot stop, or success. */
    ghost function StopOutcome(): Outcome
      requires Linked()
      reads this`state, Ancestors`state
      decreases depth
    {
      if !MayStop(state) then Fail(WrongState(Started, state))
      else if parent == null then Pass
      else parent.StopOutcome()
    }

    /** What a stop issued by this context's failure handler answers once the parent is reached. */
    ghost function ParentStopOutcome(): Outcome
      requires Linked()
      reads Ancestors`state
    {
      if parent == null then Pass else parent.StopOutcome()
    }

    /** A chain whose every context has started stops without refusal. */
    lemma {:induction false} AllStartedStops()
      requires Linked() && forall c :: c in Lineage() ==> c.state == Started
      ensures StopOutcome() == Pass
      decreases depth
    {
      if parent != null {
        parent.AllStartedStops();
      }
    }

    /**
     * What `lcStart` answers: the parent's failure if it fails; otherwise this
     * context's own answer, by its state and, when it has not started, by whether
     * its start plan builds every non-lazy instance.
     */
    ghost function StartOutcome(): Outcome
      requires Valid()
      reads this, Ancestors
      decreases depth
    {
      var up := if parent == null then Pass else parent.StartOutcome();
      if up.Fail? then up
      else if state == Started then Pass
      else if state != NotStarted then Fail(WrongState(NotStarted, state))
      else
        var plan := StartPlan(inspectors, Snapshot(), groups);
        if plan.Ok? then Pass else Fail(plan.error)
    }

    /**
     * `doStop`: every started definition is stopped, each exactly once, and the
     * answer is whether none is left started.
     */
    method DoStop() returns (stopped: seq<string>, r: bool)
      requires Valid()
      modifies this`started
      ensures Valid()
      ensures multiset(stopped) == multiset(old(started))
      ensures started == {} && r
    {
      AncestorsBelow();
      stopped := [];
      while started != {}
        invariant Valid()
        invariant multiset(stopped) + multiset(started) == multiset(old(started))
        decreases |started|
      {
        var n :| n in started;
        stopped := stopped + [n];
        started := started - {n};
      }
      r := |started| == 0;
    }

    /**
     * `lcStop`: this context stops (when it is started or starting), then its
     * parent is stopped. A context that cannot stop refuses, and nothing above it
     * is stopped.
     */
    method LcStop() returns (r: Outcome)
      requires Valid()
      modifies this`state, this`started, Ancestors`state, Ancestors`started
      ensures Valid()
      ensures r == old(StopOutcome())
      ensures MayStop(old(state)) ==> state == Stopped && started == {}
      ensures !MayStop(old(state)) ==> state == old(state) && started == old(started)
      ensures forall c :: c in Ancestors ==>
        if old(StopReaches(c)) then c.state == Stopped && c.started == {}
        else c.state == old(c.state) && c.started == old(c.started)
      decreases depth, 0
    {
      AncestorsBelow();
      if !MayStop(state) {
        return Fail(WrongState(Started, state));
      }
      state := Stopping;
      var _, _ := DoStop();
      state := Stopped;
      AncestorsKept();
      assert LocalValid();
      if parent != null {
        r := parent.LcStop();
      } else {
        r := Pass;
      }
    }

    /**
     * The non-lazy pass of `doStart`: the instance of every definition that is not
     * lazy, in registration order, stopping at the first failure; what was built
     * before a failure stays built, and the definitions built on the way are
     * recorded as started.
     */
    method StartNonLazy() returns (r: Result<bool>)
      requires Valid()
      modifies this`store, this`started
      ensures Valid()
      ensures var res := old(StartFrom(Snapshot(), groups));
        && (res.Ok? ==> r == Ok(true) && store == res.value)
        && (res.Err? ==> r == Err(res.error))
      ensures r.Ok? ==> forall i :: 0 <= i < |NonLazy(Snapshot())| ==> NonLazy(Snapshot())[i] in store.cache
      ensures Keeps(old(store), store)
      ensures started == old(started) + (store.cache.Keys - old(store.cache.Keys))
    {
      assert LocalValid();
      var st;
      r, st := BuildEach(Reg(), store, NonLazy(Snapshot()));
      SetStore(st);
    }

    /** The store replaced by a later one; the definitions newly cached are recorded as started. */
    method SetStore(st: Store)
      requires Valid() && WellFormed(Reg(), st) && st.unwired == []
      modifies this`store, this`started
      ensures Valid() && store == st
      ensures started == old(started) + (st.cache.Keys - old(store.cache.Keys))
    {
      AncestorsBelow();
      NewStoreSound(Snapshot(), groups, st);
      started := started + (st.cache.Keys - store.cache.Keys);
      store := st;
      AncestorsKept();
      assert LocalValid();
    }

    /**
     * `doStart`: the inspectors rewrite the definitions, then every non-lazy
     * definition gets its instance. When one fails the context is stopped (with
     * its parent) and the failure is reported, unless stopping fails first.
     */
    method DoStart() returns (r: Result<bool>)
      requires Valid()
      modifies this`definitions, this`store, this`started, this`state, Ancestors`state, Ancestors`started
      ensures Valid()
      ensures definitions == ApplyAll(inspectors, old(Snapshot())).defs
      ensures r.Ok? ==>
        && r.value && state == old(state)
        && forall i :: 0 <= i < |NonLazy(Snapshot())| ==> NonLazy(Snapshot())[i] in store.cache
      ensures r.Ok? ==> forall c :: c in Ancestors ==> c.state == old(c.state)
      ensures r.Ok? ==> started == old(started) + (store.cache.Keys - ApplyAll(inspectors, old(Snapshot())).store.cache.Keys)
      ensures r.Err? && MayStop(old(state)) ==> state == Stopped && started == {}
      ensures var plan := old(StartPlan(inspectors, Snapshot(), groups));
        && (plan.Ok? ==> r == Ok(true) && store == plan.value)
        && (plan.Err? ==> r == Err(if old(StopOutcome()).Fail? then old(StopOutcome()).error else plan.error))
      decreases depth, 1
    {
      ApplyAllKeeps(inspectors, Snapshot(), groups);
      ghost var stop := StopOutcome();
      ApplyObjectDefinitionModifiers();
      assert StopOutcome() == stop;
      r := NonLazyOrStop();
    }

    /**
     * The non-lazy pass of `doStart` with its failure handler: on a failure the
     * context is stopped (with its parent) and the failure is passed on, unless
     * stopping fails first.
     */
    method NonLazyOrStop() returns (r: Result<bool>)
      requires Valid()
      modifies this`store, this`started, this`state, Ancestors`state, Ancestors`started
      ensures Valid()
      ensures var res := old(StartFrom(Snapshot(), groups));
        && (res.Ok? ==> r == Ok(true) && store == res.value && state == old(state))
        && (res.Err? ==> r == Err(if old(StopOutcome()).Fail? then old(StopOutcome()).error else res.error))
      ensures r.Ok? ==> started == old(started) + (store.cache.Keys - old(store.cache.Keys))
      ensures r.Ok? ==> forall i :: 0 <= i < |NonLazy(Snapshot())| ==> NonLazy(Snapshot())[i] in store.cache
      ensures r.Ok? ==> forall c :: c in Ancestors ==> c.state == old(c.state)
      ensures r.Err? && MayStop(old(state)) ==> state == Stopped && started == {}
      decreases depth, 1
    {
      ghost var stop := StopOutcome();
      r := StartNonLazy();
      if r.Err? {
        assert StopOutcome() == stop;
        r := StopAfterFailure(r.error);
      }
    }

    /**
     * The failure handler of `doStart`: the context is stopped (with its parent),
     * then the original failure is passed on, or the stop's own failure if it
     * fails.
     */
    method StopAfterFailure(e: IoCError) returns (r: Result<bool>)
      requires Valid()
      modifies this`state, this`started, Ancestors`state, Ancestors`started
      ensures Valid()
      ensures r == if old(StopOutcome()).Fail? then Err(old(StopOutcome()).error) else Err(e)
      ensures MayStop(old(state)) ==> state == Stopped && started == {}
      decreases depth, 1
    {
      var stop := LcStop();
      if stop.Fail? {
        return Err(stop.error);
      }
      r := Err(e);
    }

    /**
     * `lcStart`: the parent starts first and a failure there is passed on; then
     * this context starts by the lifecycle's own rule (`StartSelf`).
     */
    method LcStart() returns (r: Outcome)
      requires Valid()
      modifies this`definitions, this`store, this`started, this`state
      modifies Ancestors`definitions, Ancestors`store, Ancestors`started, Ancestors`state
      ensures Valid()
      ensures r.Pass? ==> forall c :: c in Lineage() ==> c.state == Started
      ensures old(state) != NotStarted && old(state) != Started ==> r.Fail? && state == old(state)
      ensures old(state) == NotStarted && r.Pass? ==>
        && definitions == ApplyAll(inspectors, old(Snapshot())).defs
        && forall i :: 0 <= i < |NonLazy(Snapshot())| ==> NonLazy(Snapshot())[i] in store.cache
      ensures old(state) == NotStarted && r.Pass? ==>
        var plan := old(StartPlan(inspectors, Snapshot(), groups));
        && plan.Ok? && store == plan.value
        && started == old(started) + (store.cache.Keys - ApplyAll(inspectors, old(Snapshot())).store.cache.Keys)
      ensures old(state) == NotStarted && r.Fail? ==> state == NotStarted || state == Error
      ensures r == old(StartOutcome())
      ensures parent != null && old(parent.StartOutcome()).Fail? ==>
        state == old(state) && definitions == old(definitions) && store == old(store) && started == old(started)
      decreases depth, 4
    {
      AncestorsBelow();
      if parent != null {
        r := parent.LcStart();
        if r.Fail? {
          return;
        }
        assert LocalValid();
        parent.AllStartedStops();
      }
      r := StartSelf();
    }

    /**
     * The lifecycle's start rule for this context alone: a started context
     * answers at once; one that has not started is started by
     * `StartFromNotStarted`. Any other state is refused.
     */
    method StartSelf() returns (r: Outcome)
      requires Valid()
      modifies this`definitions, this`store, this`started, this`state, Ancestors`state, Ancestors`started
      ensures Valid()
      ensures old(state) == Started ==> r == Pass && state == Started
      ensures old(state) != NotStarted && old(state) != Started ==>
        r == Fail(WrongState(NotStarted, old(state))) && state == old(state)
      ensures old(state) == NotStarted ==> (r.Pass? <==> state == Started) && (r.Fail? ==> state == Error)
      ensures old(state) == NotStarted && r.Pass? ==>
        && definitions == ApplyAll(inspectors, old(Snapshot())).defs
        && forall i :: 0 <= i < |NonLazy(Snapshot())| ==> NonLazy(Snapshot())[i] in store.cache
      ensures old(state) == NotStarted ==>
        var plan := old(StartPlan(inspectors, Snapshot(), groups));
        && (r.Pass? <==> plan.Ok?)
        && (plan.Ok? ==> store == plan.value)
        && (r.Fail? ==> r.error == if old(ParentStopOutcome()).Fail? then old(ParentStopOutcome()).error else plan.error)
      ensures old(state) == NotStarted && r.Pass? ==>
        started == old(started) + (store.cache.Keys - ApplyAll(inspectors, old(Snapshot())).store.cache.Keys)
      ensures r.Pass? ==> forall c :: c in Ancestors ==> c.state == old(c.state)
      decreases depth, 3
    {
      if state == Started {
        return Pass;
      }
      if state != NotStarted {
        return Fail(WrongState(NotStarted, state));
      }
      r := StartFromNotStarted();
    }

    /**
     * Starting a context that has not started: it moves to STARTING, runs
     * `doStart`, and ends STARTED or, when that fails, ERROR with the failure
     * reported.
     */
    method StartFromNotStarted() returns (r: Outcome)
      requires Valid() && state == NotStarted
      modifies this`definitions, this`store, this`started, this`state, Ancestors`state, Ancestors`started
      ensures Valid()
      ensures (r.Pass? <==> state == Started) && (r.Fail? ==> state == Error)
      ensures r.Pass? ==>
        && definitions == ApplyAll(inspectors, old(Snapshot())).defs
        && forall i :: 0 <= i < |NonLazy(Snapshot())| ==> NonLazy(Snapshot())[i] in store.cache
      ensures var plan := old(StartPlan(inspectors, Snapshot(), groups));
        && (r.Pass? <==> plan.Ok?)
        && (plan.Ok? ==> store == plan.value)
        && (r.Fail? ==> r.error == if old(ParentStopOutcome()).Fail? then old(ParentStopOutcome()).error else plan.error)
      ensures r.Pass? ==>
        started == old(started) + (store.cache.Keys - ApplyAll(inspectors, old(Snapshot())).store.cache.Keys)
      ensures r.Pass? ==> forall c :: c in Ancestors ==> c.state == old(c.state)
      decreases depth, 2
    {
      AncestorsBelow();
      ghost var stop := ParentStopOutcome();
      SetState(Starting);
      assert StopOutcome() == stop;
      var res := DoStart();
      SetState(if res.Err? then Error else Started);
      r := if res.Err? then Fail(res.error) else Pass;
    }

    /** `setState`: the lifecycle state changes and nothing else does. */
    method SetState(s: LifecycleState)
      requires Valid()
      modifies this`state
      ensures Valid() && state == s
    {
      AncestorsBelow();
      state := s;
      AncestorsKept();
      assert LocalValid();
    }

    // -------------------------------------------------------------------------
    // Registration
    // -------------------------------------------------------------------------

    /** Registers one definition; the checks and the effect are those of `Register`. */
    method RegisterDefinition(input: Registrable, overwrite: bool) returns (r: Outcome)
      requires Valid()
      modifies this`definitions, this`order, this`store
      ensures Valid()
      ensures var res := Register(old(Snapshot()), old(state), ParentNames(), input, overwrite);
        && (res.Ok? ==> r == Pass && Snapshot() == res.value)
        && (res.Err? ==> r == Fail(res.error) && Snapshot() == old(Snapshot()))
    {
      AncestorsBelow();
      if state != NotStarted {
        return Fail(WrongState(NotStarted, state));
      }
      if !input.Definition? {
        return Fail(NotADefinition);
      }
      var d := input.def;
      if !overwrite && d.name in definitions {
        return Fail(DuplicateName(d.name));
      }
      if parent != null && d.name in parent.definitions {
        return Fail(ParentHasName(d.name));
      }
      ghost var t := Put(Snapshot(), d);
      PutKeepsStore(Snapshot(), groups, d);
      if d.name !in definitions {
        order := order + [d.name];
      }
      definitions := definitions[d.name := d];
      store := store.(cache := store.cache - {d.name});
      assert Snapshot() == t;
      AncestorsKept();
      r := Pass;
    }

    /** Registers the inputs one after the other, stopping at the first that is refused. */
    method RegisterInputs(xs: seq<Registrable>, overwrite: bool) returns (r: Outcome)
      requires Valid()
      modifies this`definitions, this`order, this`store
      ensures Valid()
      ensures (Snapshot(), r) == RegisterEach(old(Snapshot()), old(state), ParentNames(), xs, overwrite)
    {
      AncestorsBelow();
      var t, outcome := RegisterAll(Snapshot(), state, ParentNames(), xs, overwrite);
      RegisterEachKeeps(Snapshot(), state, ParentNames(), xs, overwrite, groups);
      definitions, order, store := t.defs, t.order, t.store;
      AncestorsKept();
      r := outcome;
    }

    /** `registerSingletons`: classes become singleton definitions named after them. */
    method RegisterSingletons(xs: seq<Registrable>) returns (r: Outcome)
      requires Valid()
      modifies this`definitions, this`order, this`store
      ensures Valid()
      ensures (Snapshot(), r) == RegisterEach(old(Snapshot()), old(state), ParentNames(), xs, false)
    {
      r := RegisterInputs(xs, false);
    }

    /**
     * Registers every definition of `other`, in its registration order; both contexts
     * must not have started.
     */
    method ImportContext(other: Context, overwrite: bool) returns (r: Outcome)
      requires Valid() && other.Valid()
      modifies this`definitions, this`order, this`store
      ensures Valid()
      ensures old(state) != NotStarted ==> r == Fail(WrongState(NotStarted, old(state))) && Snapshot() == old(Snapshot())
      ensures old(state) == NotStarted && old(other.state) != NotStarted ==>
        r == Fail(WrongState(NotStarted, old(other.state))) && Snapshot() == old(Snapshot())
      ensures old(state) == NotStarted && old(other.state) == NotStarted ==>
        (Snapshot(), r) == RegisterEach(old(Snapshot()), NotStarted, ParentNames(), old(AsInputs(other.Snapshot())), overwrite)
    {
      if state != NotStarted {
        return Fail(WrongState(NotStarted, state));
      }
      if other.state != NotStarted {
        return Fail(WrongState(NotStarted, other.state));
      }
      var inputs := AsInputs(other.Snapshot());
      r := RegisterInputs(inputs, overwrite);
    }

    /**
     * A new context with the same parent and a copy of every definition, in the same
     * order; inspectors, groups and instances are not copied.
     */
    method Clone(newName: string) returns (r: Result<Context>)
      requires Valid()
      ensures state != NotStarted ==> r == Err(WrongState(NotStarted, state))
      ensures state == NotStarted ==>
        var res := RegisterEach(EmptyTable, NotStarted, ParentNames(), AsInputs(Snapshot()), false);
        && (r.Ok? <==> res.1 == Pass)
        && (r.Err? ==> r.error == res.1.error)
      ensures r.Ok? ==> (
        var copy := r.value;
        && fresh(copy) && copy.Valid()
        && copy.name == newName && copy.parent == parent && copy.state == NotStarted
        && Entries(copy.Snapshot()) == Entries(Snapshot()) && copy.store == EmptyStore
        && copy.started == {} && copy.inspectors == [] && copy.groups == map[])
    {
      if state != NotStarted {
        return Err(WrongState(NotStarted, state));
      }
      var copy := new Context(newName, parent);
      var res := copy.RegisterInputs(AsInputs(Snapshot()), false);
      if res.Fail? {
        return Err(res.error);
      }
      CopyAll(Snapshot(), NotStarted, ParentNames());
      RegisterEachAppends(EmptyTable, NotStarted, ParentNames(), AsInputs(Snapshot()));
      r := Ok(copy);
    }

    // -------------------------------------------------------------------------
    // Inspectors
    // -------------------------------------------------------------------------

    /** Appends an inspector; anything else is refused. The lifecycle state is not checked. */
    method AddObjectDefinitionInspector(input: InspectorInput) returns (r: Outcome)
      requires Valid()
      modifies this`inspectors
      ensures Valid()
      ensures input.NotAnInspector? ==> r == Fail(InvalidInspector) && inspectors == old(inspectors)
      ensures input.AnInspector? ==> r == Pass && inspectors == old(inspectors) + [input.inspector]
    {
      AncestorsBelow();
      if input.NotAnInspector? {
        return Fail(InvalidInspector);
      }
      inspectors := inspectors + [input.inspector];
      r := Pass;
    }

    /**
     * Runs every inspector, in the order they were added, over every definition, in
     * registration order. What an inspector returns replaces the definition under
     * the same key.
     */
    method ApplyObjectDefinitionModifiers()
      requires Valid()
      modifies this`definitions, this`store
      ensures Valid()
      ensures Snapshot() == ApplyAll(inspectors, old(Snapshot()))
    {
      AncestorsBelow();
      var a := 0;
      while a < |inspectors|
        invariant 0 <= a <= |inspectors|
        invariant Valid()
        invariant order == old(order)
        invariant ApplyAll(inspectors, old(Snapshot())) == ApplyAll(inspectors[a..], Snapshot())
      {
        var inspector := inspectors[a];
        ApplyOneInPlace(inspector);
        assert inspectors[a..][0] == inspector && inspectors[a..][1..] == inspectors[a + 1..];
        a := a + 1;
      }
      assert inspectors[a..] == [];
    }

    /** One inspector over every definition. */
    method ApplyOneInPlace(inspector: Inspector)
      requires Valid()
      modifies this`definitions, this`store
      ensures Valid()
      ensures Snapshot() == ApplyOne(inspector, old(Snapshot()))
    {
      AncestorsBelow();
      var t := Snapshot();
      ApplyPrefixKeeps(inspector, t, t.defs.Keys, groups);
      ApplyPrefixEnds(inspector, t);
      var t' := InspectEach(inspector, t);
      definitions, store := t'.defs, t'.store;
    }

    // -------------------------------------------------------------------------
    // Lookup
    // -------------------------------------------------------------------------

    /** The nearest context of the chain, starting with this one, that owns `n`. */
    function Owner(n: string): (o: Context?)
      requires Linked()
      reads this`definitions, Ancestors`definitions
      ensures o != null ==> o in Lineage() && n in o.definitions
      decreases depth
    {
      AncestorsBelow();
      if n in definitions then this
      else if parent == null then null
      else parent.Owner(n)
    }

    /**
     * `Owner` finds the name whenever some context of the chain owns it, and no
     * context below the owner owns it.
     */
    lemma {:induction false} OwnerNearest(n: string)
      requires Linked()
      ensures Owner(n) == null <==> forall c :: c in Lineage() ==> n !in c.definitions
      ensures Owner(n) != null ==> forall c :: c in Lineage() && n in c.definitions ==> c.depth <= Owner(n).depth
      decreases depth
    {
      AncestorsBelow();
      if n !in definitions && parent != null {
        parent.OwnerNearest(n);
      }
    }

    /** The nearest context of the chain, starting with this one, that holds `d` under its name. */
    function Holder(d: Def): (o: Context?)
      requires Linked()
      reads this`definitions, Ancestors`definitions
      ensures o != null ==> o in Lineage() && d.name in o.definitions && o.definitions[d.name] == d
      decreases depth
    {
      AncestorsBelow();
      if d.name in definitions && definitions[d.name] == d then this
      else if parent == null then null
      else parent.Holder(d)
    }

    /** Every context of a valid chain is valid. */
    lemma {:induction false} LineageValid(o: Context)
      requires Valid() && o in Lineage()
      ensures o.Valid()
      decreases depth
    {
      if o != this {
        parent.LineageValid(o);
      }
    }

    /** `getDefinitionByName`: local definitions first, then the parent's. */
    function GetDefinitionByName(n: string): (r: Result<Def>)
      requires Linked()
      reads this, Ancestors
      ensures r == if Owner(n) == null then Err(NoSuchName(n)) else Ok(Owner(n).definitions[n])
      decreases depth
    {
      if n in definitions then Ok(definitions[n])
      else if parent != null then parent.GetDefinitionByName(n)
      else Err(NoSuchName(n))
    }

    /** This context's definitions that produce `className`, in registration order. */
    function LocalProducers(className: string): seq<Def>
      requires Listed(Snapshot())
      reads this
    {
      Producers(Entries(Snapshot()), className)
    }

    /**
     * By name, every definition of the chain that produces `className`: the parent's
     * view overlaid with this context's producers.
     */
    ghost function TypeView(className: string): map<string, Def>
      requires Valid()
      reads this, Ancestors
      decreases depth
    {
      var inherited := if parent == null then map[] else parent.TypeView(className);
      Overlaid(inherited, LocalProducers(className))
    }

    /** Every entry of the by-type view is stored under its own name and produces the class. */
    lemma {:induction false} TypeViewProduces(className: string)
      requires Valid()
      ensures forall k :: k in TypeView(className) ==>
        TypeView(className)[k].name == k && Produces(TypeView(className)[k], className)
      decreases depth
    {
      if parent != null {
        parent.TypeViewProduces(className);
      }
      var inherited := if parent == null then map[] else parent.TypeView(className);
      assert forall k :: k in inherited ==> inherited[k].name == k && Produces(inherited[k], className);
      OverlaidProduces(inherited, LocalProducers(className), className);
      assert TypeView(className) == Overlaid(inherited, LocalProducers(className));
    }

    /**
     * `getDefinitionsByType`: the parent's matches first, each replaced in place by a
     * local definition of the same name, then the other local matches. Only the
     * outermost call may fail, when nothing matches.
     */
    function GetDefinitionsByType(className: string, failOnMissing: bool): (r: Result<seq<Def>>)
      requires Valid()
      reads this, Ancestors
      ensures r.Ok? ==> DistinctNames(r.value) && AsMap(r.value) == TypeView(className)
      ensures r.Err? <==> failOnMissing && TypeView(className) == map[]
      ensures r.Err? ==> r.error == NoSuchType(className)
      ensures r.Ok? && parent != null ==> (
        var inherited := parent.GetDefinitionsByType(className, false).value;
        |inherited| <= |r.value| && forall i :: 0 <= i < |inherited| ==> r.value[i].name == inherited[i].name)
      decreases depth
    {
      var inherited := if parent == null then [] else parent.GetDefinitionsByType(className, false).value;
      OverlaySpec(inherited, LocalProducers(className));
      AsMapSize(Overlay(inherited, LocalProducers(className)));
      var merged := Overlay(inherited, LocalProducers(className));
      if |merged| == 0 && failOnMissing then Err(NoSuchType(className)) else Ok(merged)
    }

    /**
     * `getDefinitionByType`: the chain's by-type view must hold exactly one name; a
     * nearer definition hides an ancestor's of the same name.
     */
    function GetDefinitionByType(className: string): (r: Result<Def>)
      requires Valid()
      reads this, Ancestors
      ensures r.Ok? <==> |TypeView(className)| == 1
      ensures r.Ok? ==> TypeView(className) == map[r.value.name := r.value] && Produces(r.value, className)
      ensures r.Err? ==> r.error == if TypeView(className) == map[] then NoSuchType(className) else AmbiguousType(className)
    {
      TypeViewProduces(className);
      match GetDefinitionsByType(className, true)
      case Err(e) => Err(e)
      case Ok(ds) =>
        AsMapSize(ds);
        if |ds| > 1 then Err(AmbiguousType(className))
        else
          assert ds == [ds[0]];
          Ok(ds[0])
    }

    // -------------------------------------------------------------------------
    // Instances
    // -------------------------------------------------------------------------

    /**
     * The instance of the local definition `n`, built if it is not cached yet. The
     * definitions whose instances were built on the way are recorded as started.
     */
    method LocalInstance(n: string) returns (r: Result<Value>)
      requires Valid()
      modifies this`store, this`started
      ensures Valid()
      ensures Served(this, n, r)
      ensures Keeps(old(store), store)
      ensures r.Ok? ==> Cached(this, n, r.value)
    {
      AncestorsBelow();
      var res := GetInstance(Reg(), store, n);
      if res.Ok? {
        SetStore(res.value.1);
        r := Ok(res.value.0);
      } else {
        r := Err(res.error);
      }
    }

    /**
     * `getObjectByName`: the definition `getDefinitionByName` finds builds its
     * instance in the context that owns it; no other context changes.
     */
    method GetObjectByName(n: string) returns (r: Result<Value>)
      requires Valid()
      modifies this`store, this`started, Ancestors`store, Ancestors`started
      ensures Valid()
      ensures old(Owner(n)) == null ==> r == Err(NoSuchName(n))
      ensures old(Owner(n)) != null ==> Served(old(Owner(n)), n, r)
      ensures forall c :: c in Lineage() && c != old(Owner(n)) ==> c.store == old(c.store) && c.started == old(c.started)
      ensures r.Ok? ==> Cached(Owner(n), n, r.value)
    {
      var o := Owner(n);
      if o == null {
        return Err(NoSuchName(n));
      }
      LineageValid(o);
      r := o.LocalInstance(n);
      ValidAfter(o);
    }

    /** The instance of `d`, built by the nearest context that holds it; no other context changes. */
    method InstanceOf(d: Def) returns (r: Result<Value>)
      requires Valid()
      modifies this`store, this`started, Ancestors`store, Ancestors`started
      ensures Valid()
      ensures old(Holder(d)) == null ==> r == Err(NoSuchName(d.name))
      ensures old(Holder(d)) != null ==> Served(old(Holder(d)), d.name, r)
      ensures forall c :: c in Lineage() && c != old(Holder(d)) ==> c.store == old(c.store) && c.started == old(c.started)
      ensures r.Ok? ==> Cached(Holder(d), d.name, r.value)
    {
      var o := Holder(d);
      if o == null {
        return Err(NoSuchName(d.name));
      }
      LineageValid(o);
      r := o.LocalInstance(d.name);
      ValidAfter(o);
    }

    /** A change to one context of a valid chain that leaves it valid keeps the chain valid. */
    twostate lemma {:induction false} ValidAfter(o: Context)
      requires old(Valid()) && o in Lineage() && o.Valid()
      requires forall c :: c in Lineage() && c != o ==> unchanged(c)
      ensures Valid()
      decreases depth
    {
      if o != this {
        assert parent != null;
        parent.ValidAfter(o);
      }
    }

    /** `getObjectByType`: the instance of the one definition of the chain that produces `className`. */
    method GetObjectByType(className: string) returns (r: Result<Value>)
      requires Valid()
      modifies this`store, this`started, Ancestors`store, Ancestors`started
      ensures Valid()
      ensures old(GetDefinitionByType(className)).Err? ==>
        r == Err(old(GetDefinitionByType(className)).error)
        && forall c :: c in Lineage() ==> c.store == old(c.store) && c.started == old(c.started)
      ensures old(GetDefinitionByType(className)).Ok? ==>
        var d := old(GetDefinitionByType(className)).value;
        && (old(Holder(d)) == null ==> r == Err(NoSuchName(d.name)))
        && (old(Holder(d)) != null ==> Served(old(Holder(d)), d.name, r))
    {
      match GetDefinitionByType(className)
      case Err(e) =>
        r := Err(e);
      case Ok(d) =>
        r := InstanceOf(d);
    }

    /**
     * `getObjectsByType`: the instances of every definition of the chain that
     * produces `className`, in the order `getDefinitionsByType` lists them. Each is
     * the instance its holder caches, so asking again yields the same objects.
     */
    method GetObjectsByType(className: string) returns (r: Result<seq<Value>>)
      requires Valid()
      modifies this`store, this`started, Ancestors`store, Ancestors`started
      ensures Valid()
      ensures old(GetDefinitionsByType(className, true)).Err? ==>
        r == Err(old(GetDefinitionsByType(className, true)).error)
      ensures r.Ok? ==>
        var ds := old(GetDefinitionsByType(className, true)).value;
        && old(GetDefinitionsByType(className, true)).Ok?
        && |r.value| == |ds|
        && forall i :: 0 <= i < |ds| ==> Cached(Holder(ds[i]), ds[i].name, r.value[i])
    {
      var found := GetDefinitionsByType(className, true);
      if found.Err? {
        return Err(found.error);
      }
      var ds := found.value;
      var values: seq<Value> := [];
      var i := 0;
      while i < |ds|
        invariant 0 <= i <= |ds| && |values| == i
        invariant Valid()
        invariant forall j :: 0 <= j < i ==> Cached(Holder(ds[j]), ds[j].name, values[j])
      {
        var v := InstanceKeeping(ds[i], ds, values);
        if v.Err? {
          return Err(v.error);
        }
        CachedAppend(ds, values, v.value);
        values := values + [v.value];
        i := i + 1;
      }
      r := Ok(values);
    }

    /** `InstanceOf`, together with the instances already collected staying cached. */
    method InstanceKeeping(d: Def, ghost ds: seq<Def>, ghost values: seq<Value>) returns (r: Result<Value>)
      requires Valid() && |values| <= |ds|
      requires forall j :: 0 <= j < |values| ==> Cached(Holder(ds[j]), ds[j].name, values[j])
      modifies this`store, this`started, Ancestors`store, Ancestors`started
      ensures Valid()
      ensures forall j :: 0 <= j < |values| ==> Cached(Holder(ds[j]), ds[j].name, values[j])
      ensures r.Ok? ==> Cached(Holder(d), d.name, r.value)
    {
      r := InstanceOf(d);
      forall j | 0 <= j < |values|
        ensures Cached(Holder(ds[j]), ds[j].name, values[j])
      {
        assert Holder(ds[j]) == old(Holder(ds[j]));
      }
    }

    /** One more cached instance extends the collected prefix. */
    lemma CachedAppend(ds: seq<Def>, values: seq<Value>, v: Value)
      requires Linked() && |values| < |ds|
      requires forall j :: 0 <= j < |values| ==> Cached(Holder(ds[j]), ds[j].name, values[j])
      requires Cached(Holder(ds[|values|]), ds[|values|].name, v)
      ensures forall j :: 0 <= j < |values| + 1 ==> Cached(Holder(ds[j]), ds[j].name, (values + [v])[j])
    {
      forall j | 0 <= j < |values| + 1
        ensures Cached(Holder(ds[j]), ds[j].name, (values + [v])[j])
      {
        if j < |values| {
          assert (values + [v])[j] == values[j];
        }
      }
    }

    // -------------------------------------------------------------------------
    // Groups
    // -------------------------------------------------------------------------

    /** Appends a name to a group, creating the group when needed. */
    method AddObjectNameToGroup(group: string, n: string)
      requires Valid()
      modifies this`groups
      ensures Valid()
      ensures GroupMembers(Reg(), group) == GroupMembers(old(Reg()), group) + [n]
      ensures forall g :: g != group ==> GroupMembers(Reg(), g) == GroupMembers(old(Reg()), g)
    {
      AncestorsBelow();
      groups := groups[group := GroupMembers(Reg(), group) + [n]];
    }

    /** The local definitions of a group's members, in the order they were added. */
    function GetDefinitionsByGroup(group: string): (r: Result<seq<Def>>)
      reads this
      ensures r.Ok? ==> (|r.value| == |GroupMembers(Reg(), group)|
        && forall i :: 0 <= i < |r.value| ==>
             GroupMembers(Reg(), group)[i] in definitions && r.value[i] == definitions[GroupMembers(Reg(), group)[i]])
      ensures r.Err? <==> exists m :: m in GroupMembers(Reg(), group) && m !in definitions
    {
      GroupDefinitions(Reg(), GroupMembers(Reg(), group))
    }
  }

  /**
   * The loop of `registerSingletons` and `importContext` over values: each input
   * is registered in turn, as `registerDefinition` would, until one is refused.
   */
  method RegisterAll(t: Table, state: LifecycleState, parentNames: set<string>, xs: seq<Registrable>, overwrite: bool)
    returns (t': Table, r: Outcome)
    ensures (t', r) == RegisterEach(t, state, parentNames, xs, overwrite)
  {
    t' := t;
    var i := 0;
    while i < |xs|
      invariant 0 <= i <= |xs|
      invariant RegisterEach(t, state, parentNames, xs, overwrite) == RegisterEach(t', state, parentNames, xs[i..], overwrite)
    {
      RegisterEachStep(t', state, parentNames, xs[i..], overwrite);
      assert xs[i..][0] == xs[i] && xs[i..][1..] == xs[i + 1..];
      var one := RegisterOne(t', state, parentNames, xs[i], overwrite);
      if one.Err? {
        return t', Fail(one.error);
      }
      t' := one.value;
      i := i + 1;
    }
    assert xs[i..] == [];
    r := Pass;
  }

  /** The loop of the non-lazy pass over values: one instance per name, in order, stopping at the first failure. */
  method BuildEach(reg: Registry, st0: Store, names: seq<string>) returns (r: Result<bool>, st: Store)
    requires WellFormed(reg, st0) && st0.unwired == []
    ensures WellFormed(reg, st) && st.unwired == [] && Keeps(st0, st)
    ensures var res := StartEach(reg, st0, names);
      && (res.Ok? ==> r == Ok(true) && st == res.value)
      && (res.Err? ==> r == Err(res.error))
  {
    st := st0;
    var i := 0;
    while i < |names|
      invariant 0 <= i <= |names|
      invariant WellFormed(reg, st) && st.unwired == [] && Keeps(st0, st)
      invariant StartEach(reg, st0, names) == StartEach(reg, st, names[i..])
    {
      var n := names[i];
      StartEachStep(reg, st, names[i..]);
      assert names[i..][0] == n && names[i..][1..] == names[i + 1..];
      var one := GetInstance(reg, st, n);
      if one.Err? {
        return Err(one.error), st;
      }
      KeepsTrans(st0, st, one.value.1);
      st := one.value.1;
      i := i + 1;
    }
    assert names[i..] == [];
    r := Ok(true);
  }

  /**
   * The loop of `applyObjectDefinitionModifiers` for one inspector: the stored
   * definitions in registration order, each replaced by what the inspector makes of it.
   */
  method InspectEach(inspector: Inspector, t: Table) returns (t': Table)
    requires Sound(t)
    ensures t' == ApplyOne(inspector, t)
  {
    var defs, st := t.defs, t.store;
    var j := 0;
    ApplyPrefixEnds(inspector, t);
    while j < |t.order|
      invariant 0 <= j <= |t.order|
      invariant Table(defs, t.order, st) == ApplyPrefix(inspector, t, Names(t.order[..j]))
    {
      var k := t.order[j];
      PrefixNamesStep(t.order, j);
      ApplyPrefixStep(inspector, t, Names(t.order[..j]), k);
      var (changed, returned) := Inspect(inspector, defs[k]);
      if returned.Some? {
        defs, st := defs[k := returned.value], st.(cache := st.cache - {k});
      } else {
        defs := defs[k := changed];
      }
      j := j + 1;
    }
    assert t.order[..j] == t.order;
    t' := Table(defs, t.order, st);
  }

  /**
   * `o` answered a request for its definition `n` with `r`: the instance `GetInstance`
   * yields, with the new store kept and the newly built definitions recorded as started;
   * or the error, with nothing changed.
   */
  twostate predicate Served(o: Context, n: string, new r: Result<Value>)
    reads o
  {
    && old(o.LocalValid())
    && var res := old(GetInstance(o.Reg(), o.store, n));
    && (res.Ok? ==>
          r == Ok(res.value.0) && o.store == res.value.1
          && o.started == old(o.started) + (o.store.cache.Keys - old(o.store.cache.Keys)))
    && (res.Err? ==> r == Err(res.error) && o.store == old(o.store) && o.started == old(o.started))
  }

  /** `v` is the instance `o` caches for its definition `n`. */
  ghost predicate Cached(o: Context?, n: string, v: Value)
    reads o
  {
    o != null && n in o.store.cache && v == Object(o.store.cache[n])
  }
}

=== FILE: decorators.dfy ===
/**
 * The decorators that record container metadata on classes. Every decorated
 * target has at most one metadata record, kept in a global store under the
 * `inceptum` key and created with defaults the first time a decorator touches
 * the target. Decorators update that record in place.
 */
module Decorators {
  import opened Outcomes

  /** The key the records are stored under. */
  const MetadataKey: string := "inceptum"

  /**
   * What a decorator receives: a class's prototype (member decorators on
   * instance members) or the class constructor itself (class decorators,
   * static members).
   */
  datatype Target = Prototype(cls: string) | Constructor(cls: string)

  /** `target.prototype` of a class constructor. */
  function PrototypeOf(cls: string): Target
  {
    Prototype(cls)
  }

  /** A metadata record as a value: what `Snapshot` reads off a record object. */
  datatype Meta = Meta(autowire: map<string, string>, lazy: bool, startMethod: Option<string>, stopMethod: Option<string>)

  /** A fresh record: nothing autowired, lazy, no start or stop method. */
  const Defaults: Meta := Meta(map[], true, None, None)

  /** `#key`: how an autowired property names a configuration key rather than an object. */
  function ConfigRef(configKey: string): (s: string)
    ensures |s| == |configKey| + 1 && s[0] == '#' && s[1..] == configKey
  {
    "#" + configKey
  }

  /** Different configuration keys give different references. */
  lemma ConfigRefInjective(a: string, b: string)
    requires ConfigRef(a) == ConfigRef(b)
    ensures a == b
  {
    assert a == ConfigRef(a)[1..];
  }

  /** `InceptumMetadata`: one target's record. */
  class Metadata {
    var autowire: map<string, string>
    var lazy: bool
    var startMethod: Option<string>
    var stopMethod: Option<string>

    constructor ()
      ensures Snapshot() == Defaults
    {
      autowire := map[];
      lazy := true;
      startMethod := None;
      stopMethod := None;
    }

    function Snapshot(): Meta
      reads this
    {
      Meta(autowire, lazy, startMethod, stopMethod)
    }
  }

  /** The global metadata store: at most one record per target, never shared between targets. */
  class MetadataStore {
    var entries: map<Target, Metadata>

    ghost predicate Valid()
      reads this
    {
      forall t, u :: t in entries && u in entries && t != u ==> entries[t] != entries[u]
    }

    constructor ()
      ensures Valid() && entries == map[]
    {
      entries := map[];
    }

    /** `hasDecoratorMetadata`. */
    predicate Has(t: Target)
      reads this
    {
      t in entries
    }

    /** The record a target would be given: its own, or the defaults when it has none yet. */
    ghost function View(t: Target): Meta
      reads this, entries.Values
    {
      if t in entries then entries[t].Snapshot() else Defaults
    }

    /** The record a decorator on `t` may update, when there is one already. */
    function Existing(t: Target): set<Metadata>
      reads this
    {
      if t in entries then {entries[t]} else {}
    }

    /**
     * `getOrCreateMetadata`: the target's record when it has one; otherwise a new
     * record with the defaults, stored for the target, so that asking again
     * returns that same record.
     */
    method GetOrCreate(t: Target) returns (m: Metadata)
      requires Valid()
      modifies this
      ensures Valid()
      ensures t in entries && entries[t] == m && m.Snapshot() == old(View(t))
      ensures old(Has(t)) ==> m == old(entries[t]) && entries == old(entries)
      ensures !old(Has(t)) ==> fresh(m) && entries == old(entries)[t := m]
    {
      if Has(t) {
        return entries[t];
      }
      m := new Metadata();
      entries := entries[t := m];
    }

    /** Every target other than `t` keeps its record, and the records keep their contents. */
    twostate predicate OthersKept(t: Target)
      reads this, entries.Values
    {
      && old(entries.Keys) + {t} == entries.Keys
      && (forall u :: u in old(entries) ==> entries[u] == old(entries[u]))
      && (forall u :: u != t ==> View(u) == old(View(u)))
    }

    /** `Autowire(what)` on the member `key`: the property is wired to the object named `what`. */
    method Autowire(what: string, t: Target, key: string)
      requires Valid()
      modifies this, Existing(t)
      ensures Valid() && OthersKept(t)
      ensures View(t) == old(View(t)).(autowire := old(View(t)).autowire[key := what])
    {
      var m := GetOrCreate(t);
      m.autowire := m.autowire[key := what];
    }

    /** `AutowireConfig(configKey)` on the member `key`: the property is wired to a configuration value. */
    method AutowireConfig(configKey: string, t: Target, key: string)
      requires Valid()
      modifies this, Existing(t)
      ensures Valid() && OthersKept(t)
      ensures View(t) == old(View(t)).(autowire := old(View(t)).autowire[key := ConfigRef(configKey)])
    {
      var m := GetOrCreate(t);
      m.autowire := m.autowire[key := ConfigRef(configKey)];
    }

    /** `Lazy(lazy)` on a class: only the laziness of the record of the class's prototype changes. */
    method Lazy(lazy: bool, cls: string)
      requires Valid()
      modifies this, Existing(PrototypeOf(cls))
      ensures Valid() && OthersKept(PrototypeOf(cls))
      ensures View(PrototypeOf(cls)) == old(View(PrototypeOf(cls))).(lazy := lazy)
    {
      var m := GetOrCreate(PrototypeOf(cls));
      m.lazy := lazy;
    }

    /** `StartMethod` on the method `key`: it becomes the start method. */
    method StartMethod(t: Target, key: string)
      requires Valid()
      modifies this, Existing(t)
      ensures Valid() && OthersKept(t)
      ensures View(t) == old(View(t)).(startMethod := Some(key))
    {
      var m := GetOrCreate(t);
      m.startMethod := Some(key);
    }

    /** `StopMethod` on the method `key`: it becomes the stop method. */
    method StopMethod(t: Target, key: string)
      requires Valid()
      modifies this, Existing(t)
      ensures Valid() && OthersKept(t)
      ensures View(t) == old(View(t)).(stopMethod := Some(key))
    {
      var m := GetOrCreate(t);
      m.stopMethod := Some(key);
    }
  }
}

=== FILE: definitions.dfy ===
/**
 * Object definitions as values: the recipe the container stores under a name.
 * The source's definition objects are mutable and may be shared between contexts;
 * here a definition is a record and every change yields a new record.
 */
module Definitions {
  import opened Outcomes

  /** A JavaScript property that may be missing, null, or a string. */
  datatype Member = Undefined | Null | Name(text: string)

  /** JavaScript truthiness of such a property: only a non-empty string is truthy. */
  predicate Truthy(m: Member) { m.Name? && m.text != "" }

  /**
   * A class the container can instantiate: its name, the static `startMethod` and
   * `stopMethod` properties the start/stop inspector reads, and whether its
   * constructor throws.
   */
  datatype ClassRef = ClassRef(name: string, startMethod: Member, stopMethod: Member, throwsOnConstruct: bool)

  /** How one constructor argument or property is obtained. */
  datatype Wiring =
    | ByValue(literal: string)
    | ByRef(target: string)
    | ByType(className: string)
    | ByGroup(group: string)
    | ByDefinitionGroup(group: string)

  datatype Property = Property(key: string, wiring: Wiring)

  /** A singleton recipe, or a definition around an instance that already exists. */
  datatype DefKind = Singleton | Preinstantiated

  datatype Def = Def(
    name: string,
    cls: ClassRef,
    kind: DefKind,
    lazy: bool,
    autowireCandidate: bool,
    startMethod: Option<string>,
    stopMethod: Option<string>,
    ctorArgs: seq<Wiring>,
    props: seq<Property>)

  /** What `registerSingletons` may be handed: a definition, a class, or anything else. */
  datatype Registrable = Definition(def: Def) | Class(cls: ClassRef) | Other

  /** A singleton definition with the defaults: named after its class unless a name is given. */
  function SingletonOf(cls: ClassRef, name: Option<string>): (d: Def)
    ensures d.name == (if name.Some? then name.value else cls.name)
    ensures d.cls == cls && d.kind == Singleton
    ensures d.lazy && d.autowireCandidate
    ensures d.startMethod == None && d.stopMethod == None
    ensures d.ctorArgs == [] && d.props == []
  {
    Def(if name.Some? then name.value else cls.name, cls, Singleton, true, true, None, None, [], [])
  }

  /** Appends a property wiring; earlier properties keep their place. */
  function WithProperty(d: Def, key: string, w: Wiring): (d': Def)
    ensures |d'.props| == |d.props| + 1 && d'.props[..|d.props|] == d.props
    ensures d'.props[|d.props|] == Property(key, w)
    ensures d'.(props := d.props) == d
  {
    d.(props := d.props + [Property(key, w)])
  }

  /** A definition produces `className` for by-type lookup when it is an autowire candidate of that class. */
  predicate Produces(d: Def, className: string)
  {
    d.cls.name == className && d.autowireCandidate
  }
}

=== FILE: inspectors.dfy ===
/**
 * Definition inspectors: pluggable rewriters a Context applies to its definitions
 * once, at the start of `doStart`. The start/stop inspector changes the definition
 * it is given in place and returns nothing; a custom inspector is modelled only by
 * what it returns, a replacement or nothing.
 */
module Inspectors {
  import opened Outcomes
  import opened Definitions

  datatype Inspector =
    | StartStopMethods
    | Custom(interested: Def -> bool, rewrite: Def -> Option<Def>)

  /** What `addObjectDefinitionInspector` may be handed. */
  datatype InspectorInput = AnInspector(inspector: Inspector) | NotAnInspector

  /**
   * The start/stop inspector looks at singleton definitions whose class declares a
   * static `startMethod` or `stopMethod`, even a null one.
   */
  predicate StartStopInterestedIn(d: Def)
  {
    d.kind == Singleton && (d.cls.startMethod != Undefined || d.cls.stopMethod != Undefined)
  }

  /** Copies a truthy `startMethod` / `stopMethod` of the class into the definition. */
  function StartStopDoInspect(d: Def): (d': Def)
    ensures d'.startMethod == (if Truthy(d.cls.startMethod) then Some(d.cls.startMethod.text) else d.startMethod)
    ensures d'.stopMethod == (if Truthy(d.cls.stopMethod) then Some(d.cls.stopMethod.text) else d.stopMethod)
    ensures d' == d.(startMethod := d'.startMethod, stopMethod := d'.stopMethod)
  {
    var withStart := if Truthy(d.cls.startMethod) then d.(startMethod := Some(d.cls.startMethod.text)) else d;
    if Truthy(d.cls.stopMethod) then withStart.(stopMethod := Some(d.cls.stopMethod.text)) else withStart
  }

  /**
   * One inspection: the definition after the inspector's in-place changes, and what
   * the inspector returned. Nothing happens to a definition it is not interested in.
   */
  function Inspect(i: Inspector, d: Def): (res: (Def, Option<Def>))
  {
    match i
    case StartStopMethods =>
      if StartStopInterestedIn(d) then (StartStopDoInspect(d), None) else (d, None)
    case Custom(interested, rewrite) =>
      if interested(d) then (d, rewrite(d)) else (d, None)
  }

  /** The definition stored under the key after one inspection: a returned value replaces it. */
  function Applied(i: Inspector, d: Def): Def
  {
    var (changed, returned) := Inspect(i, d);
    if returned.Some? then returned.value else changed
  }

  /** The start/stop inspector never returns a replacement, so its effect is the in-place change. */
  lemma StartStopChangesInPlace(d: Def)
    ensures Inspect(StartStopMethods, d).1 == None
    ensures Applied(StartStopMethods, d) == if StartStopInterestedIn(d) then StartStopDoInspect(d) else d
    ensures Applied(StartStopMethods, d).name == d.name
  {
  }

  /** With both class members falsy the definition is left as it was, even when the inspector is interested. */
  lemma StartStopFalsyIsNoOp(d: Def)
    requires !Truthy(d.cls.startMethod) && !Truthy(d.cls.stopMethod)
    ensures Applied(StartStopMethods, d) == d
  {
  }

  /** Inspecting twice gives what inspecting once gives. */
  lemma StartStopIdempotent(d: Def)
    ensures Applied(StartStopMethods, Applied(StartStopMethods, d)) == Applied(StartStopMethods, d)
  {
  }
}

=== FILE: lifecycle.dfy ===
/** The lifecycle states shared by a Context and by every object definition. */
module Lifecycle {

  datatype LifecycleState = NotStarted | Starting | Started | Stopping | Stopped | Error

  /** `lcStart` may run `doStart` only from NOT_STARTED. */
  predicate MayStart(s: LifecycleState) { s == NotStarted }

  /** `lcStop` may run `doStop` only from STARTED or STARTING. */
  predicate MayStop(s: LifecycleState) { s == Started || s == Starting }
}

=== FILE: mysqlconfig.dfy ===
/**
 * The MySQL configuration manager: one singleton client definition per entry
 * of the `mysql` configuration section, registered into a context.
 */
module MysqlConfig {
  import opened Lifecycle
  import opened Outcomes
  import opened Definitions
  import opened Inspectors
  import opened Registrations
  import opened Containers

  /**
   * The client class. It is taken to inherit the static `startMethod` ("initialise")
   * and `stopMethod` ("stop") of the database client base class; its other members
   * are not modelled.
   */
  const MysqlClient: ClassRef := ClassRef("MysqlClient", Name("initialise"), Name("stop"), false)

  /** One key of the `mysql` section with its client configuration, rendered as an opaque value. */
  datatype Entry = Entry(key: string, conf: string)

  /**
   * The client definition for one entry: a lazy singleton of the client class
   * named after the key, whose `name` property is the key and whose
   * `configuration` property is the entry's configuration.
   */
  function ClientDefinition(e: Entry): (d: Def)
    ensures d.name == e.key && d.cls == MysqlClient && d.kind == Singleton
    ensures d.lazy && d.autowireCandidate && d.ctorArgs == []
    ensures d.startMethod == None && d.stopMethod == None
    ensures d.props == [Property("name", ByValue(e.key)), Property("configuration", ByValue(e.conf))]
  {
    var d := SingletonOf(MysqlClient, Some(e.key));
    WithProperty(WithProperty(d, "name", ByValue(e.key)), "configuration", ByValue(e.conf))
  }

  /**
   * The start/stop inspector gives every client definition the base class's
   * `initialise` as its start function and `stop` as its stop function, and
   * changes nothing else.
   */
  lemma ClientInspected(e: Entry)
    ensures var d := ClientDefinition(e);
      Applied(StartStopMethods, d) == d.(startMethod := Some("initialise"), stopMethod := Some("stop"))
  {
    var d := ClientDefinition(e);
    assert StartStopInterestedIn(d);
  }

  /** The client definitions of a section, in key order; none when there is no section. */
  function ClientDefinitions(mysql: Option<seq<Entry>>): (ds: seq<Def>)
    ensures mysql.None? ==> ds == []
    ensures mysql.Some? ==> |ds| == |mysql.value|
    ensures mysql.Some? ==> forall i :: 0 <= i < |ds| ==> ds[i] == ClientDefinition(mysql.value[i])
  {
    if mysql.None? then []
    else seq(|mysql.value|, i requires 0 <= i < |mysql.value| => ClientDefinition(mysql.value[i]))
  }

  /** What the manager hands to the context, in the order it does. */
  function ClientInputs(mysql: Option<seq<Entry>>): (xs: seq<Registrable>)
    ensures |xs| == |ClientDefinitions(mysql)|
    ensures forall i :: 0 <= i < |xs| ==> xs[i] == Definition(ClientDefinitions(mysql)[i])
  {
    var ds := ClientDefinitions(mysql);
    seq(|ds|, i requires 0 <= i < |ds| => Definition(ds[i]))
  }

  /**
   * `MysqlConfigManager.registerSingletons`: without a `mysql` section nothing
   * happens; otherwise each entry's client definition is registered on its own,
   * in key order, and the first refusal ends the run with that refusal.
   */
  method RegisterSingletons(context: Context, mysql: Option<seq<Entry>>) returns (r: Outcome)
    requires context.Valid()
    modifies context`definitions, context`order, context`store
    ensures context.Valid()
    ensures (context.Snapshot(), r)
      == RegisterEach(old(context.Snapshot()), old(context.state), context.ParentNames(), ClientInputs(mysql), false)
    ensures mysql.None? ==> r == Pass && context.Snapshot() == old(context.Snapshot())
  {
    ghost var xs := ClientInputs(mysql);
    ghost var names := context.ParentNames();
    if mysql.None? {
      return Pass;
    }
    var entries := mysql.value;
    var i := 0;
    while i < |entries|
      invariant 0 <= i <= |entries|
      invariant context.Valid() && context.ParentNames() == names
      invariant RegisterEach(old(context.Snapshot()), context.state, names, xs, false)
        == RegisterEach(context.Snapshot(), context.state, names, xs[i..], false)
    {
      var x := Definition(ClientDefinition(entries[i]));
      assert xs[i..][0] == x && xs[i..][1..] == xs[i + 1..];
      RegisterEachHead(context.Snapshot(), context.state, names, xs[i..], false);
      r := context.RegisterSingletons([x]);
      if r.Fail? {
        return;
      }
      i := i + 1;
    }
    assert xs[i..] == [];
    r := Pass;
  }

  /**
   * A run that succeeds adds exactly the client definitions, one per key and
   * named after it, after the context's existing definitions and in key order,
   * and builds nothing.
   */
  lemma ClientsAppended(t: Table, state: LifecycleState, parentNames: set<string>, mysql: Option<seq<Entry>>)
    requires Listed(t)
    requires RegisterEach(t, state, parentNames, ClientInputs(mysql), false).1 == Pass
    ensures var t' := RegisterEach(t, state, parentNames, ClientInputs(mysql), false).0;
      && Listed(t')
      && Entries(t') == Entries(t) + ClientDefinitions(mysql)
      && t'.store == t.store
  {
    var xs := ClientInputs(mysql);
    RegisterEachAppends(t, state, parentNames, xs);
    assert DefsOf(xs) == ClientDefinitions(mysql);
  }

  /** A run that succeeds gives every key a client definition under its own name. */
  lemma EveryKeyRegistered(t: Table, state: LifecycleState, parentNames: set<string>, mysql: Option<seq<Entry>>)
    requires Listed(t) && mysql.Some?
    requires RegisterEach(t, state, parentNames, ClientInputs(mysql), false).1 == Pass
    ensures var t' := RegisterEach(t, state, parentNames, ClientInputs(mysql), false).0;
      forall e :: e in mysql.value ==> e.key in t'.defs && t'.defs[e.key] == ClientDefinition(e)
  {
    var xs := ClientInputs(mysql);
    RegisterEachStores(t, state, parentNames, xs);
    forall e | e in mysql.value
      ensures var t' := RegisterEach(t, state, parentNames, xs, false).0;
        e.key in t'.defs && t'.defs[e.key] == ClientDefinition(e)
    {
      var i :| 0 <= i < |mysql.value| && mysql.value[i] == e;
      assert xs[i] == Definition(ClientDefinition(e));
    }
  }
}

=== FILE: outcomes.dfy ===
/** Failure-carrying results and the container's error kinds. */
module Outcomes {
  import opened Lifecycle

  datatype Option<+T> = None | Some(value: T)

  /** The exceptions the container throws, one constructor per distinct cause. */
  datatype IoCError =
    | WrongState(expected: LifecycleState, actual: LifecycleState)
    | NotADefinition
    | DuplicateName(name: string)
    | ParentHasName(name: string)
    | NotConvertible
    | InvalidInspector
    | NoSuchName(name: string)
    | NoSuchType(className: string)
    | AmbiguousType(className: string)
    | CircularDependency(chain: seq<string>)
    | InstantiationFailed(name: string)
    | PluginsAfterStart(names: seq<string>)
    | HookFailed(plugin: string)

  datatype Result<+T> = Ok(value: T) | Err(error: IoCError)

  datatype Outcome = Pass | Fail(error: IoCError)
}

=== FILE: registry.dfy ===
/**
 * A context's registry as a value: its definitions keyed by name, the order in
 * which the names were first registered (the iteration order of the source's
 * `Map`), and its instance store. The Context class keeps these three as fields;
 * the functions here are what its methods are proved against.
 */
module Registrations {
  import opened Lifecycle
  import opened Outcomes
  import opened Definitions
  import opened Resolution
  import opened Inspectors

  datatype Table = Table(defs: map<string, Def>, order: seq<string>, store: Store)

  const EmptyTable: Table := Table(map[], [], EmptyStore)

  /** Only stored names are listed in the order or have a cached instance. */
  ghost predicate Listed(t: Table)
  {
    && t.store.cache.Keys <= t.defs.Keys
    && (forall i :: 0 <= i < |t.order| ==> t.order[i] in t.defs)
  }

  /** Besides, the order lists every key exactly once. */
  ghost predicate Sound(t: Table)
  {
    && Listed(t)
    && t.defs.Keys == Names(t.order)
    && NoRepeats(t.order)
  }

  /** In a distinct order, a name does not occur before its own position. */
  lemma DistinctAt(order: seq<string>, j: nat)
    requires NoRepeats(order) && j < |order|
    ensures order[j] !in order[..j]
  {
    forall i | 0 <= i < j
      ensures order[..j][i] != order[j]
    {
    }
  }

  /** The names an order lists. */
  function Names(order: seq<string>): set<string>
    decreases |order|
  {
    if order == [] then {} else Names(order[..|order| - 1]) + {order[|order| - 1]}
  }

  /** A name is listed exactly when it occurs in the order. */
  lemma {:induction false} NamesOccur(order: seq<string>)
    ensures forall n :: n in Names(order) <==> n in order
    decreases |order|
  {
    if order != [] {
      var init := order[..|order| - 1];
      NamesOccur(init);
      assert order == init + [order[|order| - 1]];
    }
  }

  /**
   * A sound table's order names each definition exactly once, which is what the
   * by-type lookup lemmas of `Resolution` ask of a registry.
   */
  lemma SoundOrder(t: Table, groups: map<string, seq<string>>)
    requires Sound(t)
    ensures var r := Registry(t.defs, t.order, groups);
      NoRepeats(r.order) && forall m :: m in r.defs ==> m in r.order
  {
    NamesOccur(t.order);
  }

  /** Walking a distinct order: the next name is new, and then it is listed. */
  lemma PrefixNamesStep(order: seq<string>, j: nat)
    requires NoRepeats(order) && j < |order|
    ensures order[j] !in Names(order[..j])
    ensures Names(order[..j + 1]) == Names(order[..j]) + {order[j]}
  {
    NamesOccur(order[..j]);
    DistinctAt(order, j);
    assert order[..j + 1][..j] == order[..j];
  }

  /** The definitions in registration order. */
  function Entries(t: Table): (ds: seq<Def>)
    requires Listed(t)
    ensures |ds| == |t.order|
    ensures forall i :: 0 <= i < |t.order| ==> ds[i] == t.defs[t.order[i]]
  {
    seq(|t.order|, i requires 0 <= i < |t.order| => t.defs[t.order[i]])
  }

  // ---------------------------------------------------------------------------
  // registerDefinition
  // ---------------------------------------------------------------------------

  /**
   * Stores `d` under its name. A new name goes to the end of the order; a known one
   * keeps its place, and its cached instance (if any) belongs to the replaced
   * definition, so it is forgotten.
   */
  function Put(t: Table, d: Def): (t': Table)
    ensures Listed(t) ==> Listed(t')
    ensures Sound(t) ==> Sound(t')
  {
    if d.name in t.defs then
      Table(t.defs[d.name := d], t.order, t.store.(cache := t.store.cache - {d.name}))
    else
      NameAppended(t.order, d.name);
      NamesOccur(t.order);
      Table(t.defs[d.name := d], t.order + [d.name], t.store.(cache := t.store.cache - {d.name}))
  }

  /** Appending a name lists it, and keeps the order distinct when it was new. */
  lemma NameAppended(order: seq<string>, n: string)
    ensures Names(order + [n]) == Names(order) + {n}
    ensures NoRepeats(order + [n]) <==> NoRepeats(order) && n !in order
  {
    var s := order + [n];
    assert s[..|order|] == order;
    if NoRepeats(order) && n !in order {
      forall i, j | 0 <= i < j < |s|
        ensures s[i] != s[j]
      {
        if j == |order| {
          assert s[i] == order[i];
        } else {
          assert s[i] == order[i] && s[j] == order[j];
        }
      }
    }
  }

  /**
   * registerDefinition's checks in the source's order: the lifecycle state, the kind
   * of input, a local duplicate (unless overwriting), a name the immediate parent
   * already owns.
   */
  function Register(t: Table, state: LifecycleState, parentNames: set<string>, input: Registrable, overwrite: bool): Result<Table>
  {
    if state != NotStarted then Err(WrongState(NotStarted, state))
    else if !input.Definition? then Err(NotADefinition)
    else if !overwrite && input.def.name in t.defs then Err(DuplicateName(input.def.name))
    else if input.def.name in parentNames then Err(ParentHasName(input.def.name))
    else Ok(Put(t, input.def))
  }

  /**
   * Registration succeeds exactly when all four checks pass; the first failing check
   * names the error; on success the definition is stored under its name, every
   * other definition is kept, and the order gains the name only if it is new.
   */
  lemma RegisterOutcome(t: Table, state: LifecycleState, parentNames: set<string>, input: Registrable, overwrite: bool)
    requires Sound(t)
    ensures var res := Register(t, state, parentNames, input, overwrite);
      && (res.Ok? <==> (state == NotStarted && input.Definition?
                        && (overwrite || input.def.name !in t.defs) && input.def.name !in parentNames))
      && (state != NotStarted ==> res == Err(WrongState(NotStarted, state)))
      && (state == NotStarted && !input.Definition? ==> res == Err(NotADefinition))
      && (res.Ok? ==> (
            var t' := res.value;
            var n := input.def.name;
            && Sound(t')
            && n in t'.defs && t'.defs[n] == input.def
            && t'.defs.Keys == t.defs.Keys + {n}
            && (forall m :: m in t.defs && m != n ==> t'.defs[m] == t.defs[m])
            && (n in t.defs ==> t'.order == t.order && n !in t'.store.cache)
            && (n !in t.defs ==> t'.order == t.order + [n] && t'.store == t.store)))
  {
  }

  /** Putting a definition never invalidates the store. */
  lemma PutKeepsStore(t: Table, groups: map<string, seq<string>>, d: Def)
    requires WellFormed(Registry(t.defs, t.order, groups), t.store) && t.store.unwired == []
    ensures var t' := Put(t, d);
      WellFormed(Registry(t'.defs, t'.order, groups), t'.store) && t'.store.unwired == []
  {
  }

  /** A store that grew while the definitions stayed put keeps the table sound. */
  lemma NewStoreSound(t: Table, groups: map<string, seq<string>>, st: Store)
    requires Sound(t) && WellFormed(Registry(t.defs, t.order, groups), st)
    ensures Sound(Table(t.defs, t.order, st))
  {
  }

  // ---------------------------------------------------------------------------
  // registerSingletons, importContext and clone: registration one input at a time
  // ---------------------------------------------------------------------------

  /** A class is wrapped into a singleton definition named after it; a definition is taken as it is. */
  function AsDefinition(x: Registrable): (res: Result<Def>)
    ensures x.Definition? ==> res == Ok(x.def)
    ensures x.Class? ==> res == Ok(SingletonOf(x.cls, None)) && res.value.name == x.cls.name
    ensures x.Other? ==> res == Err(NotConvertible)
  {
    match x
    case Definition(d) => Ok(d)
    case Class(c) => Ok(SingletonOf(c, None))
    case Other => Err(NotConvertible)
  }

  function RegisterOne(t: Table, state: LifecycleState, parentNames: set<string>, x: Registrable, overwrite: bool): Result<Table>
  {
    match AsDefinition(x)
    case Err(e) => Err(e)
    case Ok(d) => Register(t, state, parentNames, Definition(d), overwrite)
  }

  /**
   * Registers the inputs in order and stops at the first failure; what was
   * registered before it stays registered.
   */
  function RegisterEach(t: Table, state: LifecycleState, parentNames: set<string>, xs: seq<Registrable>, overwrite: bool): (res: (Table, Outcome))
    decreases |xs|
  {
    if xs == [] then (t, Pass)
    else
      match RegisterOne(t, state, parentNames, xs[0], overwrite)
      case Err(e) => (t, Fail(e))
      case Ok(t1) => RegisterEach(t1, state, parentNames, xs[1..], overwrite)
  }

  /** One step of a registration run: the first input is registered or refused. */
  lemma RegisterEachStep(t: Table, state: LifecycleState, parentNames: set<string>, xs: seq<Registrable>, overwrite: bool)
    requires xs != []
    ensures var one := RegisterOne(t, state, parentNames, xs[0], overwrite);
      RegisterEach(t, state, parentNames, xs, overwrite)
        == if one.Err? then (t, Fail(one.error)) else RegisterEach(one.value, state, parentNames, xs[1..], overwrite)
  {
  }

  /** A run is its first input's own run followed, when that passed, by the rest. */
  lemma RegisterEachHead(t: Table, state: LifecycleState, parentNames: set<string>, xs: seq<Registrable>, overwrite: bool)
    requires xs != []
    ensures var (t1, r1) := RegisterEach(t, state, parentNames, [xs[0]], overwrite);
      RegisterEach(t, state, parentNames, xs, overwrite)
        == if r1.Fail? then (t1, r1) else RegisterEach(t1, state, parentNames, xs[1..], overwrite)
  {
    RegisterEachStep(t, state, parentNames, xs, overwrite);
    RegisterEachStep(t, state, parentNames, [xs[0]], overwrite);
  }

  /** A registration run keeps the table sound and the store well formed, and only adds names. */
  lemma {:induction false} RegisterEachKeeps(t: Table, state: LifecycleState, parentNames: set<string>, xs: seq<Registrable>, overwrite: bool, groups: map<string, seq<string>>)
    requires Sound(t) && WellFormed(Registry(t.defs, t.order, groups), t.store) && t.store.unwired == []
    ensures var t' := RegisterEach(t, state, parentNames, xs, overwrite).0;
      && Sound(t') && WellFormed(Registry(t'.defs, t'.order, groups), t'.store) && t'.store.unwired == []
      && t.defs.Keys <= t'.defs.Keys
    decreases |xs|
  {
    if xs != [] {
      RegisterEachStep(t, state, parentNames, xs, overwrite);
      var one := RegisterOne(t, state, parentNames, xs[0], overwrite);
      if one.Ok? {
        var d := AsDefinition(xs[0]).value;
        assert one == Register(t, state, parentNames, Definition(d), overwrite);
        PutKeepsStore(t, groups, d);
        RegisterEachKeeps(one.value, state, parentNames, xs[1..], overwrite, groups);
      }
    }
  }

  /** The definition each input stands for. */
  function DefsOf(xs: seq<Registrable>): (ds: seq<Def>)
    requires forall i :: 0 <= i < |xs| ==> !xs[i].Other?
    ensures |ds| == |xs|
    ensures forall i :: 0 <= i < |xs| && xs[i].Definition? ==> ds[i] == xs[i].def
  {
    if xs == [] then [] else [AsDefinition(xs[0]).value] + DefsOf(xs[1..])
  }

  lemma DefsOfCons(xs: seq<Registrable>)
    requires xs != [] && forall i :: 0 <= i < |xs| ==> !xs[i].Other?
    ensures DefsOf(xs) == [AsDefinition(xs[0]).value] + DefsOf(xs[1..])
  {
  }

  /** Later definitions with the same name win. */
  function Overlaid(m: map<string, Def>, ds: seq<Def>): map<string, Def>
    decreases |ds|
  {
    if ds == [] then m else Overlaid(m[ds[0].name := ds[0]], ds[1..])
  }

  /** Putting a new definition appends it to the entries. */
  lemma PutAppends(t: Table, d: Def)
    requires Listed(t) && d.name !in t.defs
    ensures Entries(Put(t, d)) == Entries(t) + [d]
  {
    assert forall i :: 0 <= i < |t.order| ==> t.order[i] != d.name;
  }

  /**
   * A registration run that passes leaves every input registered: the map gains the
   * inputs' definitions, later ones winning, and nothing else changes.
   */
  lemma {:induction false} RegisterEachPasses(t: Table, state: LifecycleState, parentNames: set<string>, xs: seq<Registrable>, overwrite: bool)
    requires Listed(t)
    requires RegisterEach(t, state, parentNames, xs, overwrite).1 == Pass
    ensures forall i :: 0 <= i < |xs| ==> !xs[i].Other?
    ensures var t' := RegisterEach(t, state, parentNames, xs, overwrite).0;
      Listed(t') && t'.defs == Overlaid(t.defs, DefsOf(xs))
    decreases |xs|
  {
    PassConverts(t, state, parentNames, xs, overwrite);
    if xs != [] {
      var t1 := RegisterOne(t, state, parentNames, xs[0], overwrite).value;
      RegisterEachPasses(t1, state, parentNames, xs[1..], overwrite);
      assert forall i :: 1 <= i < |xs| ==> xs[i] == xs[1..][i - 1];
      assert DefsOf(xs[1..]) == DefsOf(xs)[1..];
    }
  }

  /** Every input of a registration run that passes could be turned into a definition. */
  lemma {:induction false} PassConverts(t: Table, state: LifecycleState, parentNames: set<string>, xs: seq<Registrable>, overwrite: bool)
    requires RegisterEach(t, state, parentNames, xs, overwrite).1 == Pass
    ensures forall i :: 0 <= i < |xs| ==> !xs[i].Other?
    decreases |xs|
  {
    if xs != [] {
      PassConverts(RegisterOne(t, state, parentNames, xs[0], overwrite).value, state, parentNames, xs[1..], overwrite);
      assert forall i :: 1 <= i < |xs| ==> xs[i] == xs[1..][i - 1];
    }
  }

  /** The first step of a registration run that passes without overwriting. */
  lemma AppendStep(t: Table, state: LifecycleState, parentNames: set<string>, xs: seq<Registrable>)
    requires Listed(t) && xs != []
    requires RegisterEach(t, state, parentNames, xs, false).1 == Pass
    ensures !xs[0].Other?
    ensures var d := AsDefinition(xs[0]).value;
      && d.name !in t.defs
      && RegisterEach(t, state, parentNames, xs, false) == RegisterEach(Put(t, d), state, parentNames, xs[1..], false)
      && Put(t, d).store == t.store
      && Entries(Put(t, d)) == Entries(t) + [d]
  {
    var d := AsDefinition(xs[0]).value;
    assert RegisterOne(t, state, parentNames, xs[0], false) == Register(t, state, parentNames, Definition(d), false);
    assert t.store.cache - {d.name} == t.store.cache;
    PutAppends(t, d);
  }

  /**
   * Without overwriting, a registration run that passes appends the inputs'
   * definitions, in input order, after the ones already registered.
   */
  lemma {:induction false} RegisterEachAppends(t: Table, state: LifecycleState, parentNames: set<string>, xs: seq<Registrable>)
    requires Listed(t)
    requires RegisterEach(t, state, parentNames, xs, false).1 == Pass
    ensures forall i :: 0 <= i < |xs| ==> !xs[i].Other?
    ensures Listed(RegisterEach(t, state, parentNames, xs, false).0)
    ensures Entries(RegisterEach(t, state, parentNames, xs, false).0) == Entries(t) + DefsOf(xs)
    ensures RegisterEach(t, state, parentNames, xs, false).0.store == t.store
    decreases |xs|
  {
    PassConverts(t, state, parentNames, xs, false);
    if xs == [] {
      assert Entries(t) + DefsOf(xs) == Entries(t);
    } else {
      AppendStep(t, state, parentNames, xs);
      var d := AsDefinition(xs[0]).value;
      RegisterEachAppends(Put(t, d), state, parentNames, xs[1..]);
      DefsOfCons(xs);
      AppendAssoc(Entries(t), [d], DefsOf(xs[1..]));
    }
  }

  /**
   * Without overwriting, a registration run that passes keeps every definition
   * already registered and leaves each input's definition under its own name.
   */
  lemma {:induction false} RegisterEachStores(t: Table, state: LifecycleState, parentNames: set<string>, xs: seq<Registrable>)
    requires Listed(t)
    requires RegisterEach(t, state, parentNames, xs, false).1 == Pass
    ensures var t' := RegisterEach(t, state, parentNames, xs, false).0;
      && (forall n :: n in t.defs ==> n in t'.defs && t'.defs[n] == t.defs[n])
      && (forall i :: 0 <= i < |xs| && xs[i].Definition? ==> xs[i].def.name in t'.defs && t'.defs[xs[i].def.name] == xs[i].def)
    decreases |xs|
  {
    if xs != [] {
      AppendStep(t, state, parentNames, xs);
      var d := AsDefinition(xs[0]).value;
      RegisterEachStores(Put(t, d), state, parentNames, xs[1..]);
      assert forall i :: 1 <= i < |xs| ==> xs[i] == xs[1..][i - 1];
    }
  }

  lemma AppendAssoc<T>(a: seq<T>, b: seq<T>, c: seq<T>)
    ensures (a + b) + c == a + (b + c)
  {
  }

  /**
   * A registration run that fails stopped at some input: everything before it was
   * registered and that input was refused.
   */
  lemma {:induction false} RegisterEachStops(t: Table, state: LifecycleState, parentNames: set<string>, xs: seq<Registrable>, overwrite: bool)
    requires RegisterEach(t, state, parentNames, xs, overwrite).1.Fail?
    ensures var (t', r) := RegisterEach(t, state, parentNames, xs, overwrite);
      exists k :: 0 <= k < |xs|
        && RegisterEach(t, state, parentNames, xs[..k], overwrite) == (t', Pass)
        && RegisterOne(t', state, parentNames, xs[k], overwrite) == Err(r.error)
    decreases |xs|
  {
    var (t', r) := RegisterEach(t, state, parentNames, xs, overwrite);
    match RegisterOne(t, state, parentNames, xs[0], overwrite)
    case Err(e) =>
      assert xs[..0] == [];
      assert RegisterEach(t, state, parentNames, xs[..0], overwrite) == (t', Pass);
    case Ok(t1) =>
      RegisterEachStops(t1, state, parentNames, xs[1..], overwrite);
      var k :| 0 <= k < |xs[1..]|
        && RegisterEach(t1, state, parentNames, xs[1..][..k], overwrite) == (t', Pass)
        && RegisterOne(t', state, parentNames, xs[1..][k], overwrite) == Err(r.error);
      assert xs[..k + 1][1..] == xs[1..][..k];
      assert RegisterEach(t, state, parentNames, xs[..k + 1], overwrite) == (t', Pass);
  }

  /** Every definition of a table, in order, as registration inputs. */
  function AsInputs(t: Table): (xs: seq<Registrable>)
    requires Listed(t)
    ensures |xs| == |Entries(t)|
    ensures forall i :: 0 <= i < |xs| ==> xs[i] == Definition(Entries(t)[i])
  {
    var ds := Entries(t);
    seq(|ds|, i requires 0 <= i < |ds| => Definition(ds[i]))
  }

  /** The definitions of a table, re-registered without overwriting, as `clone` does. */
  lemma CopyAll(t: Table, state: LifecycleState, parentNames: set<string>)
    requires Listed(t)
    requires RegisterEach(EmptyTable, state, parentNames, AsInputs(t), false).1 == Pass
    ensures Listed(RegisterEach(EmptyTable, state, parentNames, AsInputs(t), false).0)
    ensures Entries(RegisterEach(EmptyTable, state, parentNames, AsInputs(t), false).0) == Entries(t)
  {
    var xs := AsInputs(t);
    RegisterEachAppends(EmptyTable, state, parentNames, xs);
    assert DefsOf(xs) == Entries(t);
  }

  // ---------------------------------------------------------------------------
  // applyObjectDefinitionModifiers
  // ---------------------------------------------------------------------------

  /** The keys whose definition the inspector replaces by returning a value. */
  function Replaced(i: Inspector, defs: map<string, Def>): set<string>
  {
    set k | k in defs && Inspect(i, defs[k]).1.Some?
  }

  /** One inspector over every stored definition; the key of each entry stays. */
  function ApplyOne(i: Inspector, t: Table): Table
  {
    Table(map k | k in t.defs :: Applied(i, t.defs[k]),
          t.order,
          t.store.(cache := t.store.cache - Replaced(i, t.defs)))
  }

  /** One inspector over the definitions whose keys are in `visited`; the others are untouched yet. */
  function ApplyPrefix(i: Inspector, t: Table, visited: set<string>): Table
  {
    Table(map k | k in t.defs :: if k in visited then Applied(i, t.defs[k]) else t.defs[k],
          t.order,
          t.store.(cache := t.store.cache - (Replaced(i, t.defs) * visited)))
  }

  /** Inspecting one more key, as the loop over the stored definitions does. */
  lemma ApplyPrefixStep(i: Inspector, t: Table, visited: set<string>, k: string)
    requires k in t.defs && k !in visited
    ensures var now := ApplyPrefix(i, t, visited);
      var (changed, returned) := Inspect(i, now.defs[k]);
      ApplyPrefix(i, t, visited + {k}) ==
        if returned.Some? then Table(now.defs[k := returned.value], now.order, now.store.(cache := now.store.cache - {k}))
        else Table(now.defs[k := changed], now.order, now.store)
  {
    var now := ApplyPrefix(i, t, visited);
    var (changed, returned) := Inspect(i, now.defs[k]);
    assert now.defs[k] == t.defs[k];
    if returned.Some? {
      assert Replaced(i, t.defs) * (visited + {k}) == Replaced(i, t.defs) * visited + {k};
    } else {
      assert Replaced(i, t.defs) * (visited + {k}) == Replaced(i, t.defs) * visited;
    }
  }

  /** Before the loop nothing is inspected; after it, everything is. */
  lemma ApplyPrefixEnds(i: Inspector, t: Table)
    ensures ApplyPrefix(i, t, {}) == t
    ensures ApplyPrefix(i, t, t.defs.Keys) == ApplyOne(i, t)
  {
    assert t.store.cache - (Replaced(i, t.defs) * {}) == t.store.cache;
    assert Replaced(i, t.defs) * t.defs.Keys == Replaced(i, t.defs);
  }

  /** Inspecting keeps the keys and the order, and only forgets cached instances. */
  lemma ApplyPrefixKeeps(i: Inspector, t: Table, visited: set<string>, groups: map<string, seq<string>>)
    requires Sound(t) && WellFormed(Registry(t.defs, t.order, groups), t.store) && t.store.unwired == []
    ensures var t' := ApplyPrefix(i, t, visited);
      && Sound(t') && WellFormed(Registry(t'.defs, t'.order, groups), t'.store) && t'.store.unwired == []
      && t'.defs.Keys == t.defs.Keys && t'.order == t.order
  {
  }

  /** Every inspector in registration order. */
  function ApplyAll(ins: seq<Inspector>, t: Table): Table
    decreases |ins|
  {
    if ins == [] then t else ApplyAll(ins[1..], ApplyOne(ins[0], t))
  }

  /** One definition passed through every inspector in order. */
  function Chain(ins: seq<Inspector>, d: Def): Def
    decreases |ins|
  {
    if ins == [] then d else Chain(ins[1..], Applied(ins[0], d))
  }

  /**
   * Applying the inspectors keeps the keys and the order, forgets only cached
   * instances, and leaves under each key its definition passed through every
   * inspector in turn.
   */
  lemma {:induction false} ApplyAllPerKey(ins: seq<Inspector>, t: Table)
    ensures var t' := ApplyAll(ins, t);
      && t'.defs.Keys == t.defs.Keys && t'.order == t.order
      && t'.store.cache.Keys <= t.store.cache.Keys && t'.store.objects == t.store.objects
      && t'.store.unwired == t.store.unwired
      && (forall k :: k in t.store.cache && k in t'.store.cache ==> t'.store.cache[k] == t.store.cache[k])
      && (forall k :: k in t.defs ==> t'.defs[k] == Chain(ins, t.defs[k]))
    decreases |ins|
  {
    if ins != [] {
      ApplyAllPerKey(ins[1..], ApplyOne(ins[0], t));
    }
  }

  /** With only the start/stop inspector, no cached instance is forgotten. */
  lemma StartStopKeepsStore(t: Table)
    ensures ApplyOne(StartStopMethods, t).store == t.store
  {
    assert Replaced(StartStopMethods, t.defs) == {};
  }

  // ---------------------------------------------------------------------------
  // getDefinitionsByType's accumulator: a JavaScript Map keyed by definition name
  // ---------------------------------------------------------------------------

  /** A list of definitions as a map from name to definition (the first of a name wins). */
  function AsMap(ds: seq<Def>): map<string, Def>
    decreases |ds|
  {
    if ds == [] then map[] else AsMap(ds[1..])[ds[0].name := ds[0]]
  }

  /** No two definitions of the list share a name. */
  predicate DistinctNames(ds: seq<Def>)
    decreases |ds|
  {
    ds == [] || (ds[0].name !in AsMap(ds[1..]) && DistinctNames(ds[1..]))
  }

  /** `set(name, d)`: an entry of that name is replaced where it stands, a new one is appended. */
  function Upsert(ds: seq<Def>, d: Def): seq<Def>
    decreases |ds|
  {
    if ds == [] then [d]
    else if ds[0].name == d.name then [d] + ds[1..]
    else [ds[0]] + Upsert(ds[1..], d)
  }

  /** `set` for each of `more` in turn. */
  function Overlay(ds: seq<Def>, more: seq<Def>): seq<Def>
    decreases |more|
  {
    if more == [] then ds else Overlay(Upsert(ds, more[0]), more[1..])
  }

  /** The definitions of the list that produce `className`, in list order. */
  function Producers(ds: seq<Def>, className: string): (ps: seq<Def>)
    ensures forall i :: 0 <= i < |ps| ==> Produces(ps[i], className)
    decreases |ds|
  {
    if ds == [] then []
    else (if Produces(ds[0], className) then [ds[0]] else []) + Producers(ds[1..], className)
  }

  /** Setting a name keeps names distinct and updates the map view at that name only. */
  lemma {:induction false} UpsertSpec(ds: seq<Def>, d: Def)
    requires DistinctNames(ds)
    ensures DistinctNames(Upsert(ds, d))
    ensures AsMap(Upsert(ds, d)) == AsMap(ds)[d.name := d]
    decreases |ds|
  {
    if ds != [] && ds[0].name != d.name {
      var rest := Upsert(ds[1..], d);
      UpsertSpec(ds[1..], d);
      assert ([ds[0]] + rest)[1..] == rest;
      assert AsMap(ds[1..])[d.name := d][ds[0].name := ds[0]] == AsMap(ds[1..])[ds[0].name := ds[0]][d.name := d];
    } else if ds != [] {
      assert ([d] + ds[1..])[1..] == ds[1..];
    }
  }

  /** Setting a name grows the list by at most one entry and keeps every earlier entry's name in its place. */
  lemma {:induction false} UpsertPlaces(ds: seq<Def>, d: Def)
    ensures |ds| <= |Upsert(ds, d)| <= |ds| + 1
    ensures forall i :: 0 <= i < |ds| ==> Upsert(ds, d)[i].name == ds[i].name
    decreases |ds|
  {
    if ds != [] && ds[0].name != d.name {
      UpsertPlaces(ds[1..], d);
    }
  }

  /** Setting each of `more` in turn: the map view is overlaid, and the earlier entries keep their places. */
  lemma {:induction false} OverlaySpec(ds: seq<Def>, more: seq<Def>)
    requires DistinctNames(ds)
    ensures DistinctNames(Overlay(ds, more))
    ensures AsMap(Overlay(ds, more)) == Overlaid(AsMap(ds), more)
    ensures |ds| <= |Overlay(ds, more)|
    ensures forall i :: 0 <= i < |ds| ==> Overlay(ds, more)[i].name == ds[i].name
    decreases |more|
  {
    if more != [] {
      UpsertSpec(ds, more[0]);
      UpsertPlaces(ds, more[0]);
      OverlaySpec(Upsert(ds, more[0]), more[1..]);
    }
  }

  /** With distinct names the list and its map view have the same size. */
  lemma {:induction false} AsMapSize(ds: seq<Def>)
    requires DistinctNames(ds)
    ensures |AsMap(ds)| == |ds|
    decreases |ds|
  {
    if ds != [] {
      AsMapSize(ds[1..]);
    }
  }

  /** Overlaying keeps every entry stored under its own name and producing `className`. */
  lemma {:induction false} OverlaidProduces(m: map<string, Def>, more: seq<Def>, className: string)
    requires forall k :: k in m ==> m[k].name == k && Produces(m[k], className)
    requires forall i :: 0 <= i < |more| ==> Produces(more[i], className)
    ensures var m' := Overlaid(m, more);
      forall k :: k in m' ==> m'[k].name == k && Produces(m'[k], className)
    decreases |more|
  {
    if more != [] {
      var rest := more[1..];
      assert forall i :: 0 <= i < |rest| ==> rest[i] == more[i + 1];
      OverlaidProduces(m[more[0].name := more[0]], rest, className);
      var m1 := m[more[0].name := more[0]];
      assert Overlaid(m, more) == Overlaid(m1, rest);
      var m' := Overlaid(m1, rest);
      assert forall k :: k in m' ==> m'[k].name == k && Produces(m'[k], className);
    }
  }

  // ---------------------------------------------------------------------------
  // doStart: the non-lazy pass
  // ---------------------------------------------------------------------------

  /** The names of the definitions that are not lazy, in the order they were registered. */
  function NonLazyOf(defs: map<string, Def>, order: seq<string>): (ns: seq<string>)
    requires forall i :: 0 <= i < |order| ==> order[i] in defs
    ensures forall i :: 0 <= i < |ns| ==> ns[i] in defs && !defs[ns[i]].lazy && ns[i] in order
    ensures forall i :: 0 <= i < |order| && !defs[order[i]].lazy ==> order[i] in ns
    decreases |order|
  {
    if order == [] then []
    else (if defs[order[0]].lazy then [] else [order[0]]) + NonLazyOf(defs, order[1..])
  }

  function NonLazy(t: Table): seq<string>
    requires Listed(t)
  {
    NonLazyOf(t.defs, t.order)
  }

  /**
   * The instances of `names`, built one after the other and stopping at the first
   * that fails. Every name has its instance when the pass succeeds.
   */
  function StartEach(r: Registry, st: Store, names: seq<string>): (res: Result<Store>)
    requires WellFormed(r, st) && st.unwired == []
    ensures res.Ok? ==> WellFormed(r, res.value) && Keeps(st, res.value) && res.value.unwired == []
    ensures res.Ok? ==> forall i :: 0 <= i < |names| ==> names[i] in res.value.cache
    decreases |names|
  {
    if names == [] then Ok(st)
    else
      var one := GetInstance(r, st, names[0]);
      if one.Err? then Err(one.error)
      else
        var st1 := one.value.1;
        var rest := StartEach(r, st1, names[1..]);
        if rest.Err? then rest
        else
          KeepsTrans(st, st1, rest.value);
          AllListed(names, rest.value.cache.Keys);
          rest
  }

  /** A list is covered by a set when its head and its tail are. */
  lemma AllListed(names: seq<string>, keys: set<string>)
    requires names != [] && names[0] in keys
    requires forall i :: 0 <= i < |names[1..]| ==> names[1..][i] in keys
    ensures forall i :: 0 <= i < |names| ==> names[i] in keys
  {
    forall i | 1 <= i < |names|
      ensures names[i] in keys
    {
      assert names[i] == names[1..][i - 1];
    }
  }

  /** Applying every inspector keeps the table sound and its store well formed with nothing queued. */
  lemma {:induction false} ApplyAllKeeps(ins: seq<Inspector>, t: Table, groups: map<string, seq<string>>)
    requires Sound(t) && WellFormed(Registry(t.defs, t.order, groups), t.store) && t.store.unwired == []
    ensures var t' := ApplyAll(ins, t);
      Sound(t') && WellFormed(Registry(t'.defs, t'.order, groups), t'.store) && t'.store.unwired == []
    decreases |ins|
  {
    if ins != [] {
      ApplyPrefixKeeps(ins[0], t, t.defs.Keys, groups);
      ApplyPrefixEnds(ins[0], t);
      ApplyAllKeeps(ins[1..], ApplyOne(ins[0], t), groups);
    }
  }

  /** The non-lazy pass over a table: the instances of its non-lazy definitions, in registration order. */
  ghost function StartFrom(t: Table, groups: map<string, seq<string>>): Result<Store>
    requires Sound(t) && WellFormed(Registry(t.defs, t.order, groups), t.store) && t.store.unwired == []
  {
    StartEach(Registry(t.defs, t.order, groups), t.store, NonLazy(t))
  }

  /**
   * What starting a context amounts to: its definitions passed through the inspectors,
   * then the instances of the non-lazy ones built in registration order.
   */
  ghost function StartPlan(ins: seq<Inspector>, t: Table, groups: map<string, seq<string>>): Result<Store>
    requires Sound(t) && WellFormed(Registry(t.defs, t.order, groups), t.store) && t.store.unwired == []
  {
    ApplyAllKeeps(ins, t, groups);
    StartFrom(ApplyAll(ins, t), groups)
  }

  /** With every definition lazy there is no non-lazy name. */
  lemma {:induction false} AllLazyNone(defs: map<string, Def>, order: seq<string>)
    requires forall i :: 0 <= i < |order| ==> order[i] in defs
    requires forall k :: k in defs ==> defs[k].lazy
    ensures NonLazyOf(defs, order) == []
    decreases |order|
  {
    if order != [] {
      AllLazyNone(defs, order[1..]);
    }
  }

  /** When every inspected definition is lazy, starting builds no instance at all. */
  lemma AllLazyStartsNothing(ins: seq<Inspector>, t: Table, groups: map<string, seq<string>>)
    requires Sound(t) && WellFormed(Registry(t.defs, t.order, groups), t.store) && t.store.unwired == []
    requires forall k :: k in ApplyAll(ins, t).defs ==> ApplyAll(ins, t).defs[k].lazy
    ensures StartPlan(ins, t, groups) == Ok(ApplyAll(ins, t).store)
  {
    ApplyAllKeeps(ins, t, groups);
    var t' := ApplyAll(ins, t);
    AllLazyNone(t'.defs, t'.order);
    assert StartFrom(t', groups) == Ok(t'.store);
  }

  /** One step of the pass: the first name's instance, then the rest from the store it left. */
  lemma StartEachStep(r: Registry, st: Store, names: seq<string>)
    requires WellFormed(r, st) && st.unwired == [] && names != []
    ensures var one := GetInstance(r, st, names[0]);
      StartEach(r, st, names) == if one.Err? then Err(one.error) else StartEach(r, one.value.1, names[1..])
  {
  }
}

=== FILE: resolution.dfy ===
/**
 * An abstract model of how a definition's instance is produced (the definition
 * classes themselves are not part of this model). Resolution runs in two phases:
 * constructor arguments are resolved depth-first along a path of definitions being
 * constructed, so a cycle through constructor references is detected; each new
 * instance is cached at once and queued, and its properties are wired afterwards,
 * so a cycle through properties resolves to the cached instances.
 */
module Resolution {
  import opened Outcomes
  import opened Definitions

  /** A resolved value: a literal, an instance (an index into the store), a list, or definitions. */
  datatype Value =
    | Literal(text: string)
    | Object(id: nat)
    | Many(items: seq<Value>)
    | DefinitionList(defs: seq<Def>)

  /** An allocated instance: its class, the arguments it was built with, and its wired fields. */
  datatype Obj = Obj(cls: string, args: seq<Value>, fields: map<string, Value>)

  /** The definitions one context owns, their registration order, and its groups. */
  datatype Registry = Registry(defs: map<string, Def>, order: seq<string>, groups: map<string, seq<string>>)

  /**
   * The runtime side: the instance cached per definition name, the instances
   * allocated so far, and the names whose properties still await wiring.
   */
  datatype Store = Store(cache: map<string, nat>, objects: seq<Obj>, unwired: seq<string>)

  const EmptyStore: Store := Store(map[], [], [])

  ghost predicate WellFormed(r: Registry, st: Store)
  {
    && (forall m :: m in st.cache ==> m in r.defs && st.cache[m] < |st.objects|)
    && (forall i :: 0 <= i < |st.unwired| ==> st.unwired[i] in st.cache)
  }

  /** Cached instances stay cached, and instances are never discarded. */
  ghost predicate Keeps(st: Store, st': Store)
  {
    && (forall m :: m in st.cache ==> m in st'.cache && st'.cache[m] == st.cache[m])
    && st.cache.Keys <= st'.cache.Keys
    && |st.objects| <= |st'.objects|
  }

  /** `st'` extends `st`, and every newly cached name has been queued for wiring. */
  ghost predicate Grows(r: Registry, st: Store, st': Store)
  {
    && WellFormed(r, st')
    && Keeps(st, st')
    && |st'.unwired| - |st.unwired| == |st'.cache.Keys| - |st.cache.Keys|
  }

  /** Names on the constructor path stay uncached. */
  ghost predicate OffPath(path: seq<string>, st: Store)
  {
    forall m :: m in path ==> m !in st.cache
  }

  ghost predicate OnRegistry(r: Registry, path: seq<string>)
  {
    forall m :: m in path ==> m in r.defs
  }

  lemma PathShrinks(keys: set<string>, path: seq<string>, n: string)
    requires n in keys && n !in path
    ensures |keys - (set m | m in path + [n])| < |keys - (set m | m in path)|
  {
    var a := keys - (set m | m in path);
    var b := keys - (set m | m in path + [n]);
    assert b == a - {n};
    assert n in a;
  }

  lemma GrowsTrans(r: Registry, st0: Store, st1: Store, st2: Store)
    requires Grows(r, st0, st1) && Grows(r, st1, st2)
    ensures Grows(r, st0, st2)
  {
  }

  lemma KeepsTrans(st0: Store, st1: Store, st2: Store)
    requires Keeps(st0, st1) && Keeps(st1, st2)
    ensures Keeps(st0, st2)
  {
  }

  lemma GrowsRefl(r: Registry, st: Store)
    requires WellFormed(r, st)
    ensures Grows(r, st, st)
  {
  }

  /** What wiring `w` denotes once the instances it refers to are cached in `st`. */
  ghost predicate Resolved(r: Registry, st: Store, w: Wiring, v: Value)
  {
    match w
    case ByValue(s) => v == Literal(s)
    case ByRef(x) => x in st.cache && v == Object(st.cache[x])
    case ByType(c) =>
      var u := UniqueByType(r, c);
      u.Ok? && u.value in st.cache && v == Object(st.cache[u.value])
    case ByGroup(g) =>
      var members := GroupMembers(r, g);
      && v.Many? && |v.items| == |members|
      && forall i :: 0 <= i < |members| ==> members[i] in st.cache && v.items[i] == Object(st.cache[members[i]])
    case ByDefinitionGroup(g) =>
      var ds := GroupDefinitions(r, GroupMembers(r, g));
      ds.Ok? && v == DefinitionList(ds.value)
  }

  /** Caching more instances does not change what a resolved wiring denotes. */
  lemma ResolvedKept(r: Registry, st: Store, st': Store, w: Wiring, v: Value)
    requires Resolved(r, st, w, v) && Keeps(st, st')
    ensures Resolved(r, st', w, v)
  {
  }

  /** The instance cached for `n` has its definition's class and its resolved constructor arguments. */
  ghost predicate Built(r: Registry, st: Store, n: string)
  {
    && n in st.cache && n in r.defs && st.cache[n] < |st.objects|
    && var o := st.objects[st.cache[n]];
    && o.cls == r.defs[n].cls.name
    && |o.args| == |r.defs[n].ctorArgs|
    && forall i :: 0 <= i < |o.args| ==> Resolved(r, st, r.defs[n].ctorArgs[i], o.args[i])
  }

  /** Property `i` is the last of `props` to assign its key, so its value is the one that stays. */
  predicate LastOfKey(props: seq<Property>, i: int)
    requires 0 <= i < |props|
  {
    forall j :: i < j < |props| ==> props[j].key != props[i].key
  }

  function KeysOf(props: seq<Property>): set<string>
  {
    set p | p in props :: p.key
  }

  /** Every key of `props` holds the resolved value of the last property assigning it. */
  ghost predicate FieldsWired(r: Registry, st: Store, fields: map<string, Value>, props: seq<Property>)
  {
    forall i :: 0 <= i < |props| && LastOfKey(props, i) ==>
      props[i].key in fields && Resolved(r, st, props[i].wiring, fields[props[i].key])
  }

  /** The instance cached for `n` has all of its definition's properties wired. */
  ghost predicate Wired(r: Registry, st: Store, n: string)
  {
    && n in st.cache && n in r.defs && st.cache[n] < |st.objects|
    && FieldsWired(r, st, st.objects[st.cache[n]].fields, r.defs[n].props)
  }

  /**
   * Every name cached in `st'` but not in `st` is queued for wiring and built, on an
   * instance allocated after `st`'s; distinct new names have distinct instances.
   */
  ghost predicate NewBuilt(r: Registry, st: Store, st': Store)
  {
    && (forall m :: m in st'.cache && m !in st.cache ==>
          m in st'.unwired && |st.objects| <= st'.cache[m] && Built(r, st', m))
    && (forall m, m' :: m in st'.cache && m' in st'.cache && m !in st.cache && m' !in st.cache && m != m' ==>
          st'.cache[m] != st'.cache[m'])
  }

  /**
   * `st'` grows `st` by built instances, keeps the queue as a prefix, and leaves every
   * earlier instance as it was, except that instance `id` may have had fields assigned.
   */
  ghost predicate ExtendsAt(r: Registry, st: Store, st': Store, id: int)
  {
    && Grows(r, st, st')
    && st.unwired <= st'.unwired
    && NewBuilt(r, st, st')
    && (forall j :: 0 <= j < |st.objects| && j != id ==> st'.objects[j] == st.objects[j])
    && (0 <= id < |st.objects| ==>
          st'.objects[id].cls == st.objects[id].cls && st'.objects[id].args == st.objects[id].args)
  }

  /** Phase one only adds instances: no earlier instance changes. */
  ghost predicate Extends(r: Registry, st: Store, st': Store)
  {
    ExtendsAt(r, st, st', -1)
  }

  lemma BuiltKept(r: Registry, st: Store, st': Store, m: string)
    requires Built(r, st, m) && Keeps(st, st') && st.cache[m] < |st'.objects|
    requires st'.objects[st.cache[m]].cls == st.objects[st.cache[m]].cls
    requires st'.objects[st.cache[m]].args == st.objects[st.cache[m]].args
    ensures Built(r, st', m)
  {
    var o := st.objects[st.cache[m]];
    forall i | 0 <= i < |o.args|
      ensures Resolved(r, st', r.defs[m].ctorArgs[i], o.args[i])
    {
      ResolvedKept(r, st, st', r.defs[m].ctorArgs[i], o.args[i]);
    }
  }

  lemma FieldsWiredKept(r: Registry, st: Store, st': Store, fields: map<string, Value>, props: seq<Property>)
    requires FieldsWired(r, st, fields, props) && Keeps(st, st')
    ensures FieldsWired(r, st', fields, props)
  {
    forall i | 0 <= i < |props| && LastOfKey(props, i)
      ensures Resolved(r, st', props[i].wiring, fields[props[i].key])
    {
      ResolvedKept(r, st, st', props[i].wiring, fields[props[i].key]);
    }
  }

  lemma ExtendsRefl(r: Registry, st: Store, id: int)
    requires WellFormed(r, st)
    ensures ExtendsAt(r, st, st, id)
  {
  }

  lemma ExtendsWeaken(r: Registry, st: Store, st': Store, id: int)
    requires Extends(r, st, st')
    ensures ExtendsAt(r, st, st', id)
  {
  }

  lemma {:induction false} ExtendsTrans(r: Registry, st0: Store, st1: Store, st2: Store, id: int)
    requires WellFormed(r, st0) && id < |st0.objects|
    requires ExtendsAt(r, st0, st1, id) && ExtendsAt(r, st1, st2, id)
    ensures ExtendsAt(r, st0, st2, id)
  {
    GrowsTrans(r, st0, st1, st2);
    forall m | m in st2.cache && m !in st0.cache
      ensures m in st2.unwired && |st0.objects| <= st2.cache[m] && Built(r, st2, m)
    {
      if m in st1.cache {
        var k :| 0 <= k < |st1.unwired| && st1.unwired[k] == m;
        assert st2.unwired[k] == m;
        BuiltKept(r, st1, st2, m);
      }
    }
  }

  /** Allocating `n` with resolved constructor arguments adds exactly one built, queued instance. */
  lemma AllocateBuilds(r: Registry, st: Store, n: string, args: seq<Value>)
    requires WellFormed(r, st) && n in r.defs && n !in st.cache
    requires |args| == |r.defs[n].ctorArgs|
    requires forall i :: 0 <= i < |args| ==> Resolved(r, st, r.defs[n].ctorArgs[i], args[i])
    ensures Extends(r, st, Allocate(r, st, n, Obj(r.defs[n].cls.name, args, map[])))
  {
    var st' := Allocate(r, st, n, Obj(r.defs[n].cls.name, args, map[]));
    forall i | 0 <= i < |args|
      ensures Resolved(r, st', r.defs[n].ctorArgs[i], args[i])
    {
      ResolvedKept(r, st, st', r.defs[n].ctorArgs[i], args[i]);
    }
    assert st'.unwired[|st.unwired|] == n;
    assert Built(r, st', n);
  }

  /** Resolved values line up with their wirings after one more is resolved in front. */
  lemma ResolvedCons(r: Registry, st: Store, ws: seq<Wiring>, v: Value, vs: seq<Value>)
    requires |ws| > 0 && |vs| == |ws| - 1 && Resolved(r, st, ws[0], v)
    requires forall i :: 0 <= i < |vs| ==> Resolved(r, st, ws[1..][i], vs[i])
    ensures forall i :: 0 <= i < |ws| ==> Resolved(r, st, ws[i], ([v] + vs)[i])
  {
    forall i | 1 <= i < |ws|
      ensures Resolved(r, st, ws[i], ([v] + vs)[i])
    {
      assert ws[i] == ws[1..][i - 1];
    }
  }

  /** The names, in registration order, of the definitions producing `className`. */
  function TypeMatches(r: Registry, className: string): (names: seq<string>)
    ensures forall i :: 0 <= i < |names| ==> names[i] in r.order && names[i] in r.defs && Produces(r.defs[names[i]], className)
    ensures forall m :: m in r.order && m in r.defs && Produces(r.defs[m], className) ==> m in names
    decreases |r.order|
  {
    if r.order == [] then []
    else
      var rest := TypeMatches(r.(order := r.order[1..]), className);
      var m := r.order[0];
      if m in r.defs && Produces(r.defs[m], className) then [m] + rest else rest
  }

  /** The one definition producing `className`; none or several is an error. */
  function UniqueByType(r: Registry, className: string): (res: Result<string>)
    ensures res.Ok? ==> res.value in r.defs && Produces(r.defs[res.value], className)
    ensures res.Err? ==> res.error == NoSuchType(className) || res.error == AmbiguousType(className)
  {
    var names := TypeMatches(r, className);
    if |names| == 0 then Err(NoSuchType(className))
    else if |names| > 1 then Err(AmbiguousType(className))
    else Ok(names[0])
  }

  /** No name occurs twice. */
  predicate NoRepeats(s: seq<string>)
  {
    forall i, j :: 0 <= i < j < |s| ==> s[i] != s[j]
  }

  /** The position of the first occurrence of `x` in `s`. */
  function IndexOf(s: seq<string>, x: string): (k: nat)
    requires x in s
    ensures k < |s| && s[k] == x && forall j :: 0 <= j < k ==> s[j] != x
  {
    if s[0] == x then 0 else 1 + IndexOf(s[1..], x)
  }

  /** Every name of `names` occurs in `order`, and `names` follows `order`'s order strictly. */
  predicate InOrder(order: seq<string>, names: seq<string>)
  {
    && (forall i :: 0 <= i < |names| ==> names[i] in order)
    && forall i, j :: 0 <= i < j < |names| ==> IndexOf(order, names[i]) < IndexOf(order, names[j])
  }

  /**
   * When the registration order names each definition once, the type matches name
   * each definition once too, in registration order.
   */
  lemma {:induction false} TypeMatchesInOrder(r: Registry, className: string)
    requires NoRepeats(r.order)
    ensures NoRepeats(TypeMatches(r, className)) && InOrder(r.order, TypeMatches(r, className))
    decreases |r.order|
  {
    if r.order != [] {
      var r' := r.(order := r.order[1..]);
      TypeMatchesInOrder(r', className);
      OrderExtends(r.order, TypeMatches(r', className));
    }
  }

  /** A list in order behind the head of `order` stays in order with or without that head in front. */
  lemma OrderExtends(order: seq<string>, rest: seq<string>)
    requires NoRepeats(order) && order != [] && InOrder(order[1..], rest)
    ensures InOrder(order, rest) && InOrder(order, [order[0]] + rest)
    ensures NoRepeats(rest) ==> NoRepeats([order[0]] + rest)
  {
    forall i | 0 <= i < |rest|
      ensures IndexOf(order, rest[i]) == 1 + IndexOf(order[1..], rest[i])
    {
      IndexOfTail(order, rest[i]);
    }
    var names := [order[0]] + rest;
    forall i, j | 0 <= i < j < |names|
      ensures IndexOf(order, names[i]) < IndexOf(order, names[j])
    {
      assert names[j] == rest[j - 1];
      if i > 0 {
        assert names[i] == rest[i - 1];
      }
    }
  }

  lemma IndexOfTail(s: seq<string>, x: string)
    requires NoRepeats(s) && s != [] && x in s[1..]
    ensures IndexOf(s, x) == 1 + IndexOf(s[1..], x)
  {
    var k :| 0 <= k < |s[1..]| && s[1..][k] == x;
    assert s[k + 1] == x;
  }

  /** A list naming each of its elements once has as many elements as their set. */
  lemma {:induction false} NoRepeatsCard(s: seq<string>)
    requires NoRepeats(s)
    ensures |set x | x in s| == |s|
  {
    if s != [] {
      NoRepeatsCard(s[1..]);
      assert (set x | x in s) == {s[0]} + (set x | x in s[1..]);
      assert s[0] !in s[1..];
    }
  }

  /** The definitions of a registry producing `className`. */
  ghost function Producing(r: Registry, className: string): set<string>
  {
    set m | m in r.defs && Produces(r.defs[m], className)
  }

  /**
   * Lookup by type succeeds exactly when one definition produces the class, and then
   * names it; it reports a missing type when none does and an ambiguous one when
   * several do.
   */
  lemma UniqueByTypeIff(r: Registry, className: string)
    requires NoRepeats(r.order) && forall m :: m in r.defs ==> m in r.order
    ensures var u := UniqueByType(r, className);
      && (u.Ok? <==> |Producing(r, className)| == 1)
      && (u.Ok? ==> Producing(r, className) == {u.value})
      && (u == Err(NoSuchType(className)) <==> Producing(r, className) == {})
      && (u == Err(AmbiguousType(className)) <==> |Producing(r, className)| > 1)
  {
    var names := TypeMatches(r, className);
    TypeMatchesInOrder(r, className);
    NoRepeatsCard(names);
    assert (set x | x in names) == Producing(r, className);
  }

  /** The members of a group in insertion order; an unknown group has none. */
  function GroupMembers(r: Registry, group: string): seq<string>
  {
    if group in r.groups then r.groups[group] else []
  }

  /** The definitions of a group's members, in group order; a member without a definition is an error. */
  function GroupDefinitions(r: Registry, names: seq<string>): (res: Result<seq<Def>>)
    ensures res.Ok? ==> (|res.value| == |names|
      && forall i :: 0 <= i < |names| ==> names[i] in r.defs && res.value[i] == r.defs[names[i]])
    ensures res.Err? <==> exists i :: 0 <= i < |names| && names[i] !in r.defs
  {
    if names == [] then Ok([])
    else if names[0] !in r.defs then Err(NoSuchName(names[0]))
    else
      match GroupDefinitions(r, names[1..])
      case Err(e) => Err(e)
      case Ok(rest) => Ok([r.defs[names[0]]] + rest)
  }

  /**
   * Phase one for definition `n`: the cached instance if there is one; otherwise its
   * constructor arguments are resolved with `n` on the path, and a new instance is
   * allocated, cached and queued for property wiring.
   */
  function Instantiate(r: Registry, st: Store, n: string, path: seq<string>): (res: Result<(nat, Store)>)
    requires WellFormed(r, st) && OnRegistry(r, path) && OffPath(path, st)
    ensures res.Ok? ==> (Extends(r, st, res.value.1) && OffPath(path, res.value.1)
      && n in res.value.1.cache && res.value.1.cache[n] == res.value.0)
    ensures res.Ok? && n !in st.cache ==> Built(r, res.value.1, n)
    ensures n in st.cache ==> res == Ok((st.cache[n], st))
    ensures n !in st.cache && n in path ==> res == Err(CircularDependency(path + [n]))
    decreases |r.defs.Keys - (set m | m in path)|, 0, 0
  {
    if n in st.cache then
      ExtendsRefl(r, st, -1);
      Ok((st.cache[n], st))
    else if n !in r.defs then Err(NoSuchName(n))
    else if n in path then Err(CircularDependency(path + [n]))
    else
      PathShrinks(r.defs.Keys, path, n);
      var d := r.defs[n];
      match ResolveArgs(r, st, d.ctorArgs, path + [n])
      case Err(e) => Err(e)
      case Ok(resolved) =>
        var (args, st1) := resolved;
        if d.cls.throwsOnConstruct then Err(InstantiationFailed(n))
        else
          var st2 := Allocate(r, st1, n, Obj(d.cls.name, args, map[]));
          AllocateBuilds(r, st1, n, args);
          ExtendsTrans(r, st, st1, st2, -1);
          Ok((|st1.objects|, st2))
  }

  /** A new instance for `n`: appended to the objects, cached under `n`, and queued for wiring. */
  function Allocate(r: Registry, st: Store, n: string, o: Obj): (st': Store)
    requires WellFormed(r, st) && n in r.defs && n !in st.cache
    ensures Grows(r, st, st')
    ensures st'.cache == st.cache[n := |st.objects|] && st'.objects == st.objects + [o]
    ensures st'.unwired == st.unwired + [n]
  {
    var st' := Store(st.cache[n := |st.objects|], st.objects + [o], st.unwired + [n]);
    assert st'.cache.Keys == st.cache.Keys + {n};
    st'
  }

  /** Phase one for a list of names: each one's instance, in order. */
  function InstantiateAll(r: Registry, st: Store, names: seq<string>, path: seq<string>): (res: Result<(seq<Value>, Store)>)
    requires WellFormed(r, st) && OnRegistry(r, path) && OffPath(path, st)
    ensures res.Ok? ==> (Extends(r, st, res.value.1) && OffPath(path, res.value.1)
      && |res.value.0| == |names|
      && forall i :: 0 <= i < |names| ==> names[i] in res.value.1.cache && res.value.0[i] == Object(res.value.1.cache[names[i]]))
    decreases |r.defs.Keys - (set m | m in path)|, 1, |names|
  {
    if names == [] then
      ExtendsRefl(r, st, -1);
      Ok(([], st))
    else
      match Instantiate(r, st, names[0], path)
      case Err(e) => Err(e)
      case Ok(first) =>
        var (id, st1) := first;
        match InstantiateAll(r, st1, names[1..], path)
        case Err(e) => Err(e)
        case Ok(rest) =>
          var (vs, st2) := rest;
          ExtendsTrans(r, st, st1, st2, -1);
          ObjectsCons(st1.cache, st2.cache, names, id, vs);
          Ok(([Object(id)] + vs, st2))
  }

  /** The instance of a first name, kept by a later cache, in front of the instances of the rest. */
  lemma ObjectsCons(c1: map<string, nat>, c2: map<string, nat>, names: seq<string>, id: nat, vs: seq<Value>)
    requires names != [] && names[0] in c1 && c1[names[0]] == id
    requires forall m :: m in c1 ==> m in c2 && c2[m] == c1[m]
    requires |vs| == |names| - 1
    requires forall i :: 0 <= i < |names[1..]| ==> names[1..][i] in c2 && vs[i] == Object(c2[names[1..][i]])
    ensures forall i :: 0 <= i < |names| ==> names[i] in c2 && ([Object(id)] + vs)[i] == Object(c2[names[i]])
  {
    forall i | 0 <= i < |names|
      ensures names[i] in c2 && ([Object(id)] + vs)[i] == Object(c2[names[i]])
    {
      if i > 0 {
        assert names[i] == names[1..][i - 1];
      }
    }
  }

  /** One wiring resolved to a value, instantiating what it refers to. */
  function ResolveArg(r: Registry, st: Store, w: Wiring, path: seq<string>): (res: Result<(Value, Store)>)
    requires WellFormed(r, st) && OnRegistry(r, path) && OffPath(path, st)
    ensures res.Ok? ==> Extends(r, st, res.value.1) && OffPath(path, res.value.1)
    ensures res.Ok? ==> Resolved(r, res.value.1, w, res.value.0)
    ensures w.ByValue? ==> res == Ok((Literal(w.literal), st))
    ensures w.ByType? && UniqueByType(r, w.className).Err? ==> res == Err(UniqueByType(r, w.className).error)
    ensures w.ByDefinitionGroup? ==>
      (res.Ok? <==> GroupDefinitions(r, GroupMembers(r, w.group)).Ok?) && (res.Ok? ==> res.value.1 == st)
    decreases |r.defs.Keys - (set m | m in path)|, 2, 0
  {
    match w
    case ByValue(v) =>
      ExtendsRefl(r, st, -1);
      Ok((Literal(v), st))
    case ByRef(x) =>
      (match Instantiate(r, st, x, path)
       case Err(e) => Err(e)
       case Ok(p) => Ok((Object(p.0), p.1)))
    case ByType(c) =>
      (match UniqueByType(r, c)
       case Err(e) => Err(e)
       case Ok(x) =>
         match Instantiate(r, st, x, path)
         case Err(e) => Err(e)
         case Ok(p) => Ok((Object(p.0), p.1)))
    case ByGroup(g) =>
      (match InstantiateAll(r, st, GroupMembers(r, g), path)
       case Err(e) => Err(e)
       case Ok(p) => Ok((Many(p.0), p.1)))
    case ByDefinitionGroup(g) =>
      (match GroupDefinitions(r, GroupMembers(r, g))
       case Err(e) => Err(e)
       case Ok(ds) =>
         ExtendsRefl(r, st, -1);
         Ok((DefinitionList(ds), st)))
  }

  /** A list of wirings resolved in order. */
  function ResolveArgs(r: Registry, st: Store, ws: seq<Wiring>, path: seq<string>): (res: Result<(seq<Value>, Store)>)
    requires WellFormed(r, st) && OnRegistry(r, path) && OffPath(path, st)
    ensures res.Ok? ==> Extends(r, st, res.value.1) && OffPath(path, res.value.1) && |res.value.0| == |ws|
    ensures res.Ok? ==> forall i :: 0 <= i < |ws| ==> Resolved(r, res.value.1, ws[i], res.value.0[i])
    decreases |r.defs.Keys - (set m | m in path)|, 3, |ws|
  {
    if ws == [] then
      ExtendsRefl(r, st, -1);
      Ok(([], st))
    else
      match ResolveArg(r, st, ws[0], path)
      case Err(e) => Err(e)
      case Ok(first) =>
        var (v, st1) := first;
        match ResolveArgs(r, st1, ws[1..], path)
        case Err(e) => Err(e)
        case Ok(rest) =>
          var (vs, st2) := rest;
          ExtendsTrans(r, st, st1, st2, -1);
          ResolvedKept(r, st1, st2, ws[0], v);
          ResolvedCons(r, st2, ws, v, vs);
          Ok(([v] + vs, st2))
  }

  /** Sets one field of an allocated instance. */
  function SetField(st: Store, id: nat, key: string, v: Value): (st': Store)
    requires id < |st.objects|
    ensures st'.cache == st.cache && st'.unwired == st.unwired && |st'.objects| == |st.objects|
    ensures st'.objects[id].fields == st.objects[id].fields[key := v]
    ensures st'.objects[id].cls == st.objects[id].cls && st'.objects[id].args == st.objects[id].args
    ensures forall j :: 0 <= j < |st.objects| && j != id ==> st'.objects[j] == st.objects[j]
  {
    st.(objects := st.objects[id := st.objects[id].(fields := st.objects[id].fields[key := v])])
  }

  /** Phase two for one instance: each property resolved (with an empty path) and assigned, in order. */
  function WireProps(r: Registry, st: Store, id: nat, props: seq<Property>): (res: Result<Store>)
    requires WellFormed(r, st) && id < |st.objects|
    ensures res.Ok? ==> Grows(r, st, res.value)
    decreases |props|
  {
    if props == [] then
      GrowsRefl(r, st);
      Ok(st)
    else
      match ResolveArg(r, st, props[0].wiring, [])
      case Err(e) => Err(e)
      case Ok(first) =>
        var (v, st1) := first;
        var st2 := SetField(st1, id, props[0].key, v);
        assert Grows(r, st1, st2);
        match WireProps(r, st2, id, props[1..])
        case Err(e) => Err(e)
        case Ok(st3) =>
          GrowsTrans(r, st, st1, st2);
          GrowsTrans(r, st, st2, st3);
          Ok(st3)
  }

  lemma SetFieldExtends(r: Registry, st: Store, id: nat, key: string, v: Value)
    requires WellFormed(r, st) && id < |st.objects|
    ensures ExtendsAt(r, st, SetField(st, id, key, v), id)
  {
  }

  /** Assigning the properties of instance `id` leaves the fields of keys it does not assign as they were. */
  ghost predicate FieldsKept(fields: map<string, Value>, fields': map<string, Value>, props: seq<Property>)
  {
    forall k :: k !in KeysOf(props) ==> (k in fields' <==> k in fields) && (k in fields ==> fields'[k] == fields[k])
  }

  /**
   * Wiring instance `id` assigns each key of `props` the resolved value of the last
   * property with that key, leaves its other fields alone, and otherwise only adds
   * built instances.
   */
  lemma {:induction false} WirePropsSets(r: Registry, st: Store, id: nat, props: seq<Property>)
    requires WellFormed(r, st) && id < |st.objects|
    ensures var res := WireProps(r, st, id, props);
      res.Ok? ==> (
        && ExtendsAt(r, st, res.value, id)
        && FieldsWired(r, res.value, res.value.objects[id].fields, props)
        && FieldsKept(st.objects[id].fields, res.value.objects[id].fields, props))
    decreases |props|
  {
    if props != [] && ResolveArg(r, st, props[0].wiring, []).Ok? {
      var (v, st1) := ResolveArg(r, st, props[0].wiring, []).value;
      var st2 := SetField(st1, id, props[0].key, v);
      WirePropsSets(r, st2, id, props[1..]);
      var res := WireProps(r, st2, id, props[1..]);
      if res.Ok? {
        var st3 := res.value;
        ExtendsWeaken(r, st, st1, id);
        SetFieldExtends(r, st1, id, props[0].key, v);
        ExtendsTrans(r, st, st1, st2, id);
        ExtendsTrans(r, st, st2, st3, id);
        KeepsTrans(st1, st2, st3);
        WiredInFront(r, st1, st3, props, v, st2.objects[id].fields, st3.objects[id].fields);
      }
    }
  }

  lemma WiredInFront(r: Registry, st1: Store, st3: Store, props: seq<Property>, v: Value,
                     f2: map<string, Value>, f3: map<string, Value>)
    requires |props| > 0 && Keeps(st1, st3) && Resolved(r, st1, props[0].wiring, v)
    requires props[0].key in f2 && f2[props[0].key] == v
    requires FieldsWired(r, st3, f3, props[1..]) && FieldsKept(f2, f3, props[1..])
    ensures FieldsWired(r, st3, f3, props)
  {
    forall i | 0 <= i < |props| && LastOfKey(props, i)
      ensures props[i].key in f3 && Resolved(r, st3, props[i].wiring, f3[props[i].key])
    {
      if i == 0 {
        ResolvedKept(r, st1, st3, props[0].wiring, v);
      } else {
        assert props[i] == props[1..][i - 1];
        assert LastOfKey(props[1..], i - 1);
      }
    }
  }

  lemma CacheBound(r: Registry, st: Store)
    requires WellFormed(r, st)
    ensures |st.cache.Keys| <= |r.defs.Keys|
  {
    assert st.cache.Keys <= r.defs.Keys;
    assert r.defs.Keys == st.cache.Keys + (r.defs.Keys - st.cache.Keys);
  }

  /**
   * Phase two: wires queued instances first-in first-out until the queue is empty.
   * Wiring may instantiate and queue further definitions; each definition is
   * queued at most once, which bounds the pass.
   */
  function WireAll(r: Registry, st: Store): (res: Result<Store>)
    requires WellFormed(r, st)
    ensures res.Ok? ==> WellFormed(r, res.value) && Keeps(st, res.value) && res.value.unwired == []
    ensures st.unwired == [] ==> res == Ok(st)
    decreases |r.defs.Keys| - |st.cache.Keys| + |st.unwired|
  {
    CacheBound(r, st);
    if st.unwired == [] then Ok(st)
    else
      var n := st.unwired[0];
      var st0 := st.(unwired := st.unwired[1..]);
      match WireProps(r, st0, st.cache[n], r.defs[n].props)
      case Err(e) => Err(e)
      case Ok(st1) =>
        CacheBound(r, st1);
        WireAll(r, st1)
  }

  /**
   * What holds of the names cached since `base` while the queue is worked off: each is
   * built on an instance of its own allocated after `base`'s, and each that has left
   * the queue is wired.
   */
  ghost predicate WireInv(r: Registry, base: Store, st: Store)
  {
    && (forall m :: m in st.cache && m !in base.cache ==>
          |base.objects| <= st.cache[m] && Built(r, st, m) && (m !in st.unwired ==> Wired(r, st, m)))
    && (forall m, m' :: m in st.cache && m' in st.cache && m !in base.cache && m' !in base.cache && m != m' ==>
          st.cache[m] != st.cache[m'])
  }

  lemma PrefixMembers(a: seq<string>, b: seq<string>)
    requires a <= b
    ensures forall m :: m in a ==> m in b
  {
    forall m | m in a
      ensures m in b
    {
      var k :| 0 <= k < |a| && a[k] == m;
      assert b[k] == m;
    }
  }

  /** Wiring the head of the queue keeps `WireInv` for one name cached since `base`. */
  lemma WireStepName(r: Registry, base: Store, st: Store, st1: Store, m: string)
    requires WellFormed(r, base) && WellFormed(r, st) && Keeps(base, st) && WireInv(r, base, st)
    requires st.unwired != []
    requires ExtendsAt(r, st.(unwired := st.unwired[1..]), st1, st.cache[st.unwired[0]])
    requires FieldsWired(r, st1, st1.objects[st.cache[st.unwired[0]]].fields, r.defs[st.unwired[0]].props)
    requires m in st1.cache && m !in base.cache
    ensures |base.objects| <= st1.cache[m] && Built(r, st1, m) && (m !in st1.unwired ==> Wired(r, st1, m))
  {
    var n := st.unwired[0];
    if m in st.cache {
      assert m != n ==> st.cache[m] != st.cache[n];
      BuiltKept(r, st, st1, m);
      PrefixMembers(st.unwired[1..], st1.unwired);
      if m != n && m !in st1.unwired {
        FieldsWiredKept(r, st, st1, st.objects[st.cache[m]].fields, r.defs[m].props);
      }
    }
  }

  /** Wiring the head of the queue keeps `WireInv`. */
  lemma WireStep(r: Registry, base: Store, st: Store, st1: Store)
    requires WellFormed(r, base) && WellFormed(r, st) && Keeps(base, st) && WireInv(r, base, st)
    requires st.unwired != []
    requires ExtendsAt(r, st.(unwired := st.unwired[1..]), st1, st.cache[st.unwired[0]])
    requires FieldsWired(r, st1, st1.objects[st.cache[st.unwired[0]]].fields, r.defs[st.unwired[0]].props)
    ensures Keeps(base, st1) && WireInv(r, base, st1)
  {
    KeepsTrans(base, st, st1);
    forall m | m in st1.cache && m !in base.cache
      ensures |base.objects| <= st1.cache[m] && Built(r, st1, m) && (m !in st1.unwired ==> Wired(r, st1, m))
    {
      WireStepName(r, base, st, st1, m);
    }
  }

  /** Working off the queue wires every name cached since `base`. */
  lemma {:induction false} WireAllWires(r: Registry, base: Store, st: Store)
    requires WellFormed(r, base) && WellFormed(r, st) && Keeps(base, st) && WireInv(r, base, st)
    ensures var res := WireAll(r, st);
      res.Ok? ==> forall m :: m in res.value.cache && m !in base.cache ==> Built(r, res.value, m) && Wired(r, res.value, m)
    decreases |r.defs.Keys| - |st.cache.Keys| + |st.unwired|
  {
    CacheBound(r, st);
    if st.unwired != [] {
      var n := st.unwired[0];
      var st0 := st.(unwired := st.unwired[1..]);
      WirePropsSets(r, st0, st.cache[n], r.defs[n].props);
      var res := WireProps(r, st0, st.cache[n], r.defs[n].props);
      if res.Ok? {
        CacheBound(r, res.value);
        WireStep(r, base, st, res.value);
        WireAllWires(r, base, res.value);
      }
    }
  }

  /**
   * The instance of definition `n`: constructed if it is not cached yet, then every
   * instance created on the way is wired. A cached instance is returned as it is,
   * which makes every definition a singleton.
   */
  function GetInstance(r: Registry, st: Store, n: string): (res: Result<(Value, Store)>)
    requires WellFormed(r, st) && st.unwired == []
    ensures res.Ok? ==> (
      var (v, st') := res.value;
      && WellFormed(r, st') && Keeps(st, st') && st'.unwired == []
      && n in st'.cache && v == Object(st'.cache[n]))
    ensures n in st.cache ==> res == Ok((Object(st.cache[n]), st))
    ensures n !in st.cache && n !in r.defs ==> res == Err(NoSuchName(n))
  {
    match Instantiate(r, st, n, [])
    case Err(e) => Err(e)
    case Ok(p) =>
      var (id, st1) := p;
      match WireAll(r, st1)
      case Err(e) => Err(e)
      case Ok(st2) => Ok((Object(st2.cache[n]), st2))
  }

  /**
   * Two definitions built by one request whose properties both refer to definition `b`
   * hold the same instance of `b`: the diamond closes on one singleton.
   */
  lemma DiamondShared(r: Registry, st: Store, n: string, a1: string, i1: nat, a2: string, i2: nat, b: string)
    requires WellFormed(r, st) && st.unwired == [] && GetInstance(r, st, n).Ok?
    requires a1 in GetInstance(r, st, n).value.1.cache && a1 !in st.cache
    requires a2 in GetInstance(r, st, n).value.1.cache && a2 !in st.cache
    requires a1 in r.defs && i1 < |r.defs[a1].props| && LastOfKey(r.defs[a1].props, i1)
    requires a2 in r.defs && i2 < |r.defs[a2].props| && LastOfKey(r.defs[a2].props, i2)
    requires r.defs[a1].props[i1].wiring == ByRef(b) && r.defs[a2].props[i2].wiring == ByRef(b)
    ensures var st' := GetInstance(r, st, n).value.1;
      var f1 := st'.objects[st'.cache[a1]].fields;
      var f2 := st'.objects[st'.cache[a2]].fields;
      && r.defs[a1].props[i1].key in f1 && r.defs[a2].props[i2].key in f2
      && b in st'.cache
      && f1[r.defs[a1].props[i1].key] == f2[r.defs[a2].props[i2].key] == Object(st'.cache[b])
  {
    GetInstanceBuilds(r, st, n);
  }

  /**
   * A property wired by type holds the instance of the one definition producing that
   * type, in a registry whose order names each definition once.
   */
  lemma TypeWiredInstance(r: Registry, st: Store, m: string, i: nat, a: string)
    requires NoRepeats(r.order) && forall x :: x in r.defs ==> x in r.order
    requires Wired(r, st, m) && i < |r.defs[m].props| && LastOfKey(r.defs[m].props, i)
    requires r.defs[m].props[i].wiring.ByType? && Producing(r, r.defs[m].props[i].wiring.className) == {a}
    ensures var f := st.objects[st.cache[m]].fields;
      && a in st.cache && r.defs[m].props[i].key in f
      && f[r.defs[m].props[i].key] == Object(st.cache[a])
  {
    UniqueByTypeIff(r, r.defs[m].props[i].wiring.className);
  }

  /**
   * Every instance a request builds has its definition's class, its resolved
   * constructor arguments, and every property wired to its resolved value.
   */
  lemma GetInstanceBuilds(r: Registry, st: Store, n: string)
    requires WellFormed(r, st) && st.unwired == []
    ensures var res := GetInstance(r, st, n);
      res.Ok? ==> forall m :: m in res.value.1.cache && m !in st.cache ==>
        Built(r, res.value.1, m) && Wired(r, res.value.1, m)
  {
    var p := Instantiate(r, st, n, []);
    if p.Ok? {
      WireAllWires(r, st, p.value.1);
    }
  }

  /**
   * A wiring that needs nothing new: a literal, a reference to a name already cached,
   * or a type whose one producer is already cached.
   */
  predicate Ready(r: Registry, st: Store, w: Wiring)
  {
    || w.ByValue?
    || (w.ByRef? && w.target in st.cache)
    || (w.ByType? && UniqueByType(r, w.className).Ok? && UniqueByType(r, w.className).value in st.cache)
  }

  /** A ready wiring resolves without building anything. */
  lemma ReadyArg(r: Registry, st: Store, w: Wiring, path: seq<string>)
    requires WellFormed(r, st) && OnRegistry(r, path) && OffPath(path, st) && Ready(r, st, w)
    ensures ResolveArg(r, st, w, path).Ok? && ResolveArg(r, st, w, path).value.1 == st
  {
    if w.ByRef? {
      assert Instantiate(r, st, w.target, path) == Ok((st.cache[w.target], st));
    } else if w.ByType? {
      var x := UniqueByType(r, w.className).value;
      assert Instantiate(r, st, x, path) == Ok((st.cache[x], st));
    }
  }

  /** Ready constructor wirings resolve without building anything. */
  lemma {:induction false} ReadyArgs(r: Registry, st: Store, ws: seq<Wiring>, path: seq<string>)
    requires WellFormed(r, st) && OnRegistry(r, path) && OffPath(path, st)
    requires forall i :: 0 <= i < |ws| ==> Ready(r, st, ws[i])
    ensures ResolveArgs(r, st, ws, path).Ok? && ResolveArgs(r, st, ws, path).value.1 == st
    decreases |ws|
  {
    if ws != [] {
      ReadyArg(r, st, ws[0], path);
      ReadyArgs(r, st, ws[1..], path);
    }
  }

  /** Ready properties are wired without building anything: only fields change. */
  lemma {:induction false} ReadyProps(r: Registry, st: Store, id: nat, props: seq<Property>)
    requires WellFormed(r, st) && id < |st.objects|
    requires forall i :: 0 <= i < |props| ==> Ready(r, st, props[i].wiring)
    ensures var res := WireProps(r, st, id, props);
      res.Ok? && res.value.cache == st.cache && res.value.unwired == st.unwired
    decreases |props|
  {
    if props != [] {
      ReadyArg(r, st, props[0].wiring, []);
      var v := ResolveArg(r, st, props[0].wiring, []).value.0;
      var st2 := SetField(st, id, props[0].key, v);
      assert forall i :: 0 <= i < |props[1..]| ==> props[1..][i] == props[i + 1];
      ReadyProps(r, st2, id, props[1..]);
    }
  }

  /**
   * A definition whose constructor arguments and properties are all ready (literals,
   * or references and types whose instances already exist), and whose class does not throw,
   * is built: the request succeeds, caches only this definition's new instance,
   * and that instance is built and wired from those wirings.
   */
  lemma ReadyBuilds(r: Registry, st: Store, n: string)
    requires WellFormed(r, st) && st.unwired == []
    requires n in r.defs && n !in st.cache && !r.defs[n].cls.throwsOnConstruct
    requires forall i :: 0 <= i < |r.defs[n].ctorArgs| ==> Ready(r, st, r.defs[n].ctorArgs[i])
    requires forall i :: 0 <= i < |r.defs[n].props| ==> Ready(r, st, r.defs[n].props[i].wiring)
    ensures var res := GetInstance(r, st, n);
      && res.Ok?
      && res.value.1.cache == st.cache[n := |st.objects|]
      && Built(r, res.value.1, n) && Wired(r, res.value.1, n)
  {
    var st1 := ReadyInstantiates(r, st, n);
    var st0 := st1.(unwired := []);
    ReadyProps(r, st0, |st.objects|, r.defs[n].props);
    var st3 := WireProps(r, st0, |st.objects|, r.defs[n].props).value;
    assert WireAll(r, st1) == WireAll(r, st3);
    GetInstanceBuilds(r, st, n);
  }

  /** Phase one of `ReadyBuilds`: one new instance, cached under `n` and queued, and nothing else. */
  lemma ReadyInstantiates(r: Registry, st: Store, n: string) returns (st1: Store)
    requires WellFormed(r, st) && st.unwired == []
    requires n in r.defs && n !in st.cache && !r.defs[n].cls.throwsOnConstruct
    requires forall i :: 0 <= i < |r.defs[n].ctorArgs| ==> Ready(r, st, r.defs[n].ctorArgs[i])
    ensures Instantiate(r, st, n, []) == Ok((|st.objects|, st1))
    ensures WellFormed(r, st1) && st1.cache == st.cache[n := |st.objects|] && st1.unwired == [n]
  {
    var d := r.defs[n];
    assert [] + [n] == [n];
    ReadyArgs(r, st, d.ctorArgs, [n]);
    var args := ResolveArgs(r, st, d.ctorArgs, [n]).value.0;
    st1 := Allocate(r, st, n, Obj(d.cls.name, args, map[]));
  }

  /** Asking again for an instance just obtained yields the same instance and changes nothing. */
  lemma SingletonInstance(r: Registry, st: Store, n: string)
    requires WellFormed(r, st) && st.unwired == []
    requires GetInstance(r, st, n).Ok?
    ensures GetInstance(r, GetInstance(r, st, n).value.1, n) == GetInstance(r, st, n)
  {
  }

  /**
   * Two definitions whose first constructor arguments refer to each other cannot be
   * built: asking for either one fails with the cycle named.
   */
  lemma {:induction false} ConstructorCycleFails(r: Registry, st: Store, a: string, b: string)
    requires WellFormed(r, st) && st.unwired == []
    requires a != b && a in r.defs && b in r.defs && a !in st.cache && b !in st.cache
    requires |r.defs[a].ctorArgs| > 0 && r.defs[a].ctorArgs[0] == ByRef(b)
    requires |r.defs[b].ctorArgs| > 0 && r.defs[b].ctorArgs[0] == ByRef(a)
    ensures GetInstance(r, st, a) == Err(CircularDependency([a, b, a]))
  {
    assert [a, b] + [a] == [a, b, a] && [a] + [b] == [a, b] && [] + [a] == [a];
    assert Instantiate(r, st, a, [a, b]) == Err(CircularDependency([a, b, a]));
    assert ResolveArg(r, st, ByRef(a), [a, b]) == Err(CircularDependency([a, b, a]));
    assert ResolveArgs(r, st, r.defs[b].ctorArgs, [a, b]) == Err(CircularDependency([a, b, a]));
    assert Instantiate(r, st, b, [a]) == Err(CircularDependency([a, b, a]));
    assert ResolveArg(r, st, ByRef(b), [a]) == Err(CircularDependency([a, b, a]));
    assert ResolveArgs(r, st, r.defs[a].ctorArgs, [a]) == Err(CircularDependency([a, b, a]));
    assert Instantiate(r, st, a, []) == Err(CircularDependency([a, b, a]));
  }

  /** The store after building `a` with a freshly built `b` as its only constructor argument. */
  function CycleBuilt(r: Registry, st: Store, a: string, b: string): Store
    requires a in r.defs && b in r.defs
  {
    var k := |st.objects|;
    Store(st.cache[b := k][a := k + 1],
          st.objects + [Obj(r.defs[b].cls.name, [], map[])] + [Obj(r.defs[a].cls.name, [Object(k)], map[])],
          [b, a])
  }

  lemma {:induction false} CycleConstruct(r: Registry, st: Store, a: string, b: string)
    requires WellFormed(r, st) && st.unwired == []
    requires a != b && a in r.defs && b in r.defs && a !in st.cache && b !in st.cache
    requires r.defs[a].ctorArgs == [ByRef(b)] && r.defs[b].ctorArgs == []
    requires !r.defs[a].cls.throwsOnConstruct && !r.defs[b].cls.throwsOnConstruct
    ensures Instantiate(r, st, a, []) == Ok((|st.objects| + 1, CycleBuilt(r, st, a, b)))
  {
    var k := |st.objects|;
    var s1 := CycleArgument(r, st, a, b);
    assert [] + [a] == [a];
    var s2 := Allocate(r, s1, a, Obj(r.defs[a].cls.name, [Object(k)], map[]));
    assert s2 == CycleBuilt(r, st, a, b);
  }

  /** The constructor argument of `a` in the scenario above: `b`'s new instance, built with `a` on the path. */
  lemma {:induction false} CycleArgument(r: Registry, st: Store, a: string, b: string) returns (s1: Store)
    requires WellFormed(r, st) && st.unwired == []
    requires a != b && a in r.defs && b in r.defs && a !in st.cache && b !in st.cache
    requires r.defs[b].ctorArgs == [] && !r.defs[b].cls.throwsOnConstruct
    ensures s1 == Allocate(r, st, b, Obj(r.defs[b].cls.name, [], map[]))
    ensures ResolveArgs(r, st, [ByRef(b)], [a]) == Ok(([Object(|st.objects|)], s1))
  {
    var k := |st.objects|;
    assert [a] + [b] == [a, b];
    assert ResolveArgs(r, st, [], [a, b]) == Ok(([], st));
    s1 := Allocate(r, st, b, Obj(r.defs[b].cls.name, [], map[]));
    assert Instantiate(r, st, b, [a]) == Ok((k, s1));
    assert ResolveArg(r, st, ByRef(b), [a]) == Ok((Object(k), s1));
    assert ResolveArgs(r, s1, [], [a]) == Ok(([], s1));
    assert [ByRef(b)][1..] == [] && [Object(k)] + [] == [Object(k)];
  }

  lemma {:induction false} CycleWire(r: Registry, st: Store, a: string, b: string, key: string)
    requires WellFormed(r, st) && st.unwired == []
    requires a != b && a in r.defs && b in r.defs && a !in st.cache && b !in st.cache
    requires r.defs[a].props == [] && r.defs[b].props == [Property(key, ByRef(a))]
    requires WellFormed(r, CycleBuilt(r, st, a, b))
    ensures
      var k := |st.objects|;
      var s2 := CycleBuilt(r, st, a, b);
      WireAll(r, s2) == Ok(SetField(s2.(unwired := []), k, key, Object(k + 1)))
  {
    var k := |st.objects|;
    var s2 := CycleBuilt(r, st, a, b);
    var s2' := s2.(unwired := [a]);
    assert ResolveArg(r, s2', ByRef(a), []) == Ok((Object(k + 1), s2'));
    var s3 := SetField(s2', k, key, Object(k + 1));
    assert WireProps(r, s3, k, []) == Ok(s3);
    assert [Property(key, ByRef(a))][1..] == [];
    assert WireProps(r, s2', k, [Property(key, ByRef(a))]) == Ok(s3);
    assert WireAll(r, s2) == WireAll(r, s3);
    var s3' := s3.(unwired := []);
    assert WireProps(r, s3', k + 1, []) == Ok(s3');
    assert WireAll(r, s3) == WireAll(r, s3');
    assert s3' == SetField(s2.(unwired := []), k, key, Object(k + 1));
  }

  /**
   * A constructor reference from `a` to `b` closed by a property reference from `b`
   * back to `a` resolves: `a` is built with `b`'s instance and `b`'s field then holds
   * `a`'s instance.
   */
  lemma {:induction false} PropertyCycleResolves(r: Registry, st: Store, a: string, b: string, key: string)
    requires WellFormed(r, st) && st.unwired == []
    requires a != b && a in r.defs && b in r.defs && a !in st.cache && b !in st.cache
    requires r.defs[a].ctorArgs == [ByRef(b)] && r.defs[a].props == []
    requires r.defs[b].ctorArgs == [] && r.defs[b].props == [Property(key, ByRef(a))]
    requires !r.defs[a].cls.throwsOnConstruct && !r.defs[b].cls.throwsOnConstruct
    ensures GetInstance(r, st, a).Ok?
    ensures
      var st' := GetInstance(r, st, a).value.1;
      && a in st'.cache && b in st'.cache && st'.cache[a] != st'.cache[b]
      && st'.objects[st'.cache[a]].args == [Object(st'.cache[b])]
      && key in st'.objects[st'.cache[b]].fields
      && st'.objects[st'.cache[b]].fields[key] == Object(st'.cache[a])
  {
    var k := |st.objects|;
    CycleConstruct(r, st, a, b);
    var s2 := CycleBuilt(r, st, a, b);
    CycleWire(r, st, a, b, key);
    var s4 := SetField(s2.(unwired := []), k, key, Object(k + 1));
    assert GetInstance(r, st, a) == Ok((Object(k + 1), s4));
    assert s4.cache[a] == k + 1 && s4.cache[b] == k;
    assert s4.objects[k + 1] == s2.objects[k + 1];
  }
}
